=== FILE: README.md ===
# deliberate_practice: routine, results and user input

A model, in Dafny, of the console half of the deliberate_practice program, which helps a
user practise a routine of activities and keeps a record of how each practice went.

- **Routine** (`routine.py`). The activities file holds one activity description per line.
  Loading it yields the activities in file order, each description the line with its
  surrounding whitespace stripped. A missing file or a file with no lines is an error. An
  activity's key is its description. The routine lists its descriptions in key order and
  hands out an arbitrary activity to practise.
- **Results** (`results.py`). The practices file starts with a count line N. N three-line
  practice sets follow, each an activity key, an integer score and an ISO-8601 date-time.
  - Loading reads exactly N practice sets. The fields of each are checked in a fixed order.
    Any data after the last practice set other than newlines is rejected.
  - Saving writes the same format back.
  - Adding a practice set appends it in memory.
- **User input** (`user_input.py`). Two retry loops ask for input until it is clear: a
  numbered choice, and a yes/no answer. Running out of input means no choice was made.

The model is functional. A file's content is a `string`, with `None` for a missing file, and
the position of an open file is the content not yet read. Both files are opened in text mode,
where Python reads "\r\n" and a lone "\r" as "\n". `TextIO.UniversalNewlines` is that
translation, and the lemmas about files state the load of the text as read. `TextIO` gives
`readline` and `readlines` on that representation. `PyText` gives Python's `str.strip`, `str.rstrip("\n")`,
`int()` and `str()` as the program uses them, except for the limit on the number of digits that
`int()` and `str()` enforce (see "Left out"). `int()` takes surrounding whitespace, a sign and
single underscores between digits. Errors the source raises are `Failure` values of
`Wrappers.Result`, one datatype constructor per exception and cause, and their message texts
are kept.
`fetch_input` is modelled as the sequence of lines it returns, so running out of that
sequence is its `EOFError`. The date-time type is a parameter `T` with `isoformat` and
`fromisoformat` passed in as a `DateTimeFormat`. The round trip of that format is an explicit
assumption (`Results.RoundTrips`): each formatted date-time is a non-empty single line, free
of "\r", that parses back to itself. A key the practices file can carry
(`Results.IsStorableKey`) is a non-empty line holding neither "\n" nor "\r".

Files: `wrappers.dfy`, `pytext.dfy`, `textio.dfy`, `order.dfy` (Python's string order and
`sorted`), `routine.dfy`, `routine_examples.dfy`, `results.dfy`, `user_input.dfy`,
`user_input_examples.dfy` and `session.dfy`. The last one covers activities flowing from the
routine into the results file.

## Model

| member | source | states |
|---|---|---|
| `TextIO.ReadLine` | results.py:114 | `readline()` splits off the first line, keeping its newline; the two parts make up the content; it returns "" only at the end of the content |
| `TextIO.ReadLines` | routine.py:23 | `readlines()` gives lines whose concatenation is the whole content, each non-empty, with a newline only at its end, and every line but the last ending in one |
| `TextIO.LinesAvoid` | routine.py:23 | a character the content does not hold is in none of the lines `readlines()` gives |
| `TextIO.UniversalNewlines` | results.py:33 | text read in universal-newlines mode holds no "\r" and is no longer than the text before translation |
| `TextIO.UniversalNewlinesOfPlain` | routine.py:22 | reading in universal-newlines mode leaves the text unchanged exactly when it holds no "\r" |
| `TextIO.UniversalNewlinesAppend` | results.py:33 | when the first part does not end in "\r", two parts of a file are read in universal-newlines mode independently |
| `PyText.StripSpec` | routine.py:24 | `strip()` keeps a contiguous part of the line that neither starts nor ends with whitespace, and everything it cuts off is whitespace |
| `PyText.StripNewlinesEmpty` | results.py:53-54 | `strip("\n")` leaves nothing exactly when the remaining data is all newlines |
| `PyText.NatToString` | results.py:158 | `str(n)` of a natural number is a non-empty run of digits whose decimal value is n |
| `PyText.NatToStringCanonical` | results.py:158 | `str(n)` has no leading zero: it is one digit exactly when n < 10, and starts with 0 only for n = 0 |
| `PyText.ParseIntToString` | results.py:121-122 | `int(str(n)) == n`, also with the newline `readline` leaves on the line |
| `PyText.ParseIntRejectsStrayChar` | user_input.py:20-23 | `int()` fails on any text holding a character that is not a digit, underscore, sign or tolerated whitespace |
| `StringOrder.Sort` | routine.py:37 | `sorted` returns an ascending permutation of its input |
| `StringOrder.SortedPermutationUnique` | routine.py:37 | two ascending permutations of the same strings are equal, so the sorted list is determined by the activities |
| `Routine.ActivitiesOf` | routine.py:23-24 | one activity per line read, in file order, each description the stripped line |
| `Routine.LoadActivities` | routine.py:18-33 | a missing file fails with the no-file error; an empty file fails with no activities found; otherwise there is one activity per line, and each key equals its description and the stripped line |
| `Routine.LoadedDescriptionsAreTrimmed` | routine.py:24 | every loaded description holds no newline, and a non-empty one neither starts nor ends with whitespace |
| `Routine.LoadedKeysAvoid` | routine.py:22-24 | a character the activities file's text does not hold is in no loaded key, so keys read in universal-newlines mode hold no "\r" |
| `Routine.GetActivityDescriptions` | routine.py:35-38 | the descriptions come out in ascending code-point order and are a permutation of the activities' descriptions |
| `Routine.GetNumActivities` | routine.py:40-42 | the count equals the length of the description list |
| `Routine.SortedDescriptionsKept` | routine.py:35-38 | descriptions already in order come back unchanged |
| `Routine.GetRandomActivity` | routine.py:44-46 | the activity handed out is one of the routine's activities |
| `Routine.DropBlankMembers` | routine_test.py:25-56 | an activity is kept exactly when it was there and its description is non-empty |
| `Routine.DropBlankCounts` | routine_test.py:25-56 | each non-blank activity is kept as many times as it occurs, and each blank one not at all |
| `Routine.DropBlankAppend` | routine_test.py:46-56 | dropping blank lines keeps the order: it acts on each part of a list separately |
| `Routine.LoadActivitiesSkippingBlanks` | routine_test.py:25-56 | with blank lines discarded, a file fails exactly when every line is blank; otherwise the activities are exactly those of the plain loader with the blank ones dropped, in order, each with a non-empty, newline-free key |
| `Routine.KeptActivities` | routine_test.py:25-56 | with blank lines discarded, nothing is kept exactly when every line is blank; otherwise what is kept is the plain loader's list with the blank activities dropped, each with a non-empty, newline-free key |
| `RoutineExamples.BlankLinesBecomeActivities` | routine.py:23-24 | as written, n blank lines load as n activities with an empty description instead of failing |
| `RoutineExamples.BlankLineBeforeActivityKept` | routine_test.py:46-56 | as written, "\n" + a + "\n" loads as two activities, the first one empty |
| `RoutineExamples.SkippingBlanksRejectsBlankFile` | routine_test.py:25-34 | with blank lines discarded, a file of blank lines fails with no activities found |
| `RoutineExamples.SkippingBlanksIgnoresBlankLine` | routine_test.py:46-56 | with blank lines discarded, "\n" + a + "\n" loads as the one activity a |
| `RoutineExamples.TwoDescriptionsSwapped` | routine.py:35-38 | two activities listed in descending key order are returned in ascending order |
| `RoutineExamples.SpaceSortsBeforeUnderscore` | routine_test.py:58-75 | "activity with Whitespace" sorts before "activity_1", whatever their file order |
| `Results.LoadPracticeSetChecksInOrder` | results.py:106-138 | the first failing check decides the error: key present, then score present, then score an integer, then date-time present, then ISO; when all pass, the three fields make the practice set and exactly three lines are consumed |
| `Results.PracticeSetRoundTrip` | results.py:153-158 | loading what `PracticeSet.save` wrote gives an equal practice set and leaves what follows unread, when the key is storable (non-empty, with no "\n" or "\r") and the date-time format round-trips |
| `Results.SavedThenFailure` | results.py:43-50 | practice sets that read back, followed by text whose practice-set read fails, make a read of more practice sets than were saved fail with that same cause |
| `Results.NothingLeftToRead` | results.py:114-116 | reading a practice set at the end of the file fails on the missing key |
| `Results.SavedEmptyKeyFails` | results.py:114-116 | a saved practice set with an empty key reads back as a missing key |
| `Results.Save` | results.py:60-69 | the saved text's first line is the number of practice sets, and the practice sets' lines follow it |
| `Results.SavedRecordLines` | results.py:153-158 | one practice set is saved as three newline-terminated lines: key, score, date-time |
| `Results.SavedLines` | results.py:66-69 | after the count line come three lines per practice set, in list order |
| `Results.LoadEach` | results.py:43-50 | a successful read of n practice sets holds exactly n of them |
| `Results.EachRoundTrip` | results.py:43-50 | if each practice set reads back on its own, reading them in turn gives them back in order, followed by whatever the later reads give |
| `Results.PracticeSetsRoundTrip` | results.py:43-50 | reading the saved practice sets followed by more text gives them back in order, then continues on that text |
| `Results.Load` | results.py:17-58 | a missing file gives an empty store; an empty file and an unreadable count line fail with the count error, quoting the line; a success holds the count's number of practice sets, none for a negative count |
| `Results.FinishLoad` | results.py:43-58 | a failed practice set fails the load with its cause; otherwise the load succeeds exactly when only newlines remain, with the practice sets read, and fails with the remaining data, newlines stripped, when anything else remains |
| `Results.LoadCountLine` | results.py:33-43 | a file starting with the count line n reads max(n, 0) practice sets from what follows |
| `Results.NegativeCountReadsNothing` | results.py:43 | a negative count loads like a count of zero |
| `Results.LoadSavedWithTrailingData` | results.py:52-58 | saved data followed by newlines only loads back unchanged; any other trailing data fails with the remaining data, newlines stripped |
| `Results.LoadSavedFileWithTrailingData` | results.py:33-58 | the file as read: saved data followed by text that reads as newlines only loads back unchanged; otherwise the load fails with the remaining data as read, newlines stripped |
| `Results.SavedFileReadsBack` | results.py:33 | the text `save` writes holds no "\r" when no key does, so reading the file gives back exactly that text |
| `Results.RoundTrip` | results_test.py:44-90 | loading what `save` wrote, as written and as read from the file, gives the same practice sets in the same order, when every key is one non-empty line without "\r" |
| `Results.CarriageReturnKeyReadsBackChanged` | results.py:33 | a key ending in "\r" is not carried by the file: as read, the practice set comes back with the "\r" gone |
| `Results.MissingPracticeSets` | results_test.py:107-117 | a count larger than the practice sets present fails with "Failed to load practice_set", caused by a missing key, also as read from the file |
| `Results.EmptyKeyNotReloadable` | results.py:114-116 | a store holding a practice set with an empty key saves, but its file fails to load on that key, as written and as read, whatever the later keys hold |
| `Results.SavedEmptyKeyStopsReading` | results.py:43-50 | reading back saved practice sets stops with a missing key at the first one whose key is empty, when the ones before it are storable |
| `Results.GetNumPracticeSets` | results.py:71-73 | the count equals the length of the list of practice sets |
| `Results.AddPracticeSet` | results.py:75-79 | one more practice set, the earlier ones unchanged, the new last one keyed by the activity's key with the given score and date-time |
| `Results.AddedPracticeSetReloads` | results.py:60-79 | adding a practice set with a storable key to a store whose keys are all storable gives a store that saves and loads back unchanged, as written and as read from the file |
| `Session.BlankActivityBreaksResults` | results.py:75-79 | as written, an activity from a blank routine line, once scored and saved, makes the results file fail to load, as written and as read |
| `Session.ActivityFromRoutineReloads` | results.py:66-79 | with blank lines discarded, any activity the routine hands out from its file as read can be scored, saved and loaded back unchanged, as written and as read |
| `UserInput.ValidPickOfNumber` | user_input.py:19-28 | the decimal form of n is a valid pick exactly when 1 <= n <= max_choice |
| `UserInput.StrayCharNeverValid` | user_input.py:19-23 | input with a character that belongs to no number is never a valid pick |
| `UserInput.Ask` | user_input.py:51-67 | the loop fails exactly when no input is accepted; otherwise the answer comes from the first accepted input, all earlier ones were rejected, and exactly the inputs after it are left unfetched |
| `UserInput.PromptForPick` | user_input.py:58-61 | the index returned is the deciding input's integer minus one, from 0 to max_choice - 1, and exactly the inputs after that one are left unfetched |
| `UserInput.PromptForPickFirstValid` | user_input.py:51-61 | the deciding input is the first valid pick, every earlier input was skipped, and the prompt fails exactly when no input is a valid pick |
| `UserInput.PromptForChoice` | user_input.py:31-67 | as written, the index returned lies from 0 to the number of choices inclusive |
| `UserInput.ChoiceOnePastEndAccepted` | user_input.py:49 | as written, the number one past the last choice is accepted and returns an index no choice has |
| `UserInput.PromptForChoiceInRange` | user_input.py:44-49 | with max_choice the number of choices, the index returned names a choice |
| `UserInput.ChoiceOnePastEndRejected` | user_input.py:49 | with max_choice the number of choices, the number one past the last choice is skipped |
| `UserInput.NumberedChoicePicked` | user_input_test.py:10-21 | a pick n from 1 to the number of choices returns n - 1 and leaves later inputs unfetched |
| `UserInput.InRangeAccepted` | user_input.py:19-28 | the decimal form of a number from 1 to max_choice is a valid pick and parses back to that number |
| `UserInput.UnclearInputSkipped` | user_input.py:58-67 | input that is not a valid pick is skipped and the prompt asks again |
| `UserInput.SkippedThenPicked` | user_input.py:58-67 | an input that is not a valid pick, then a valid pick p, returns index p - 1 with nothing left unfetched |
| `UserInput.OutOfRangeThenPicked` | user_input_test.py:29-39 | a number out of range, then a number in range, returns the second pick's index |
| `UserInput.PromptYesOrNo` | user_input.py:70-89 | fails exactly when no input is y, Y, n or N; otherwise the answer is true exactly when the first such input is y or Y, every earlier input was skipped, and exactly the inputs after it are left unfetched |
| `UserInput.AskIgnoresLaterInput` | user_input.py:58-67 | once an input is accepted, no later input is fetched: appending inputs changes neither the answer nor the inputs it leaves, beyond the appended ones |
| `UserInput.YesOrNoIgnoresLaterInput` | user_input.py:80-89 | inputs after the first clear answer change neither the answer nor what was fetched |
| `UserInputExamples.ValidChoiceAfterInvalidString` | user_input_test.py:23-27 | "invalid_choice" then "1" over three choices returns 0 |
| `UserInputExamples.ValidChoiceAfterTooLarge` | user_input_test.py:29-33 | "7" then "1" over three choices returns 0 |
| `UserInputExamples.ValidChoiceAfterNegative` | user_input_test.py:35-39 | "-7" then "2" over three choices returns 1 |
| `UserInputExamples.NoChoiceMade` | user_input_test.py:41-51 | no input, or only "5", over three choices raises NoChoiceMadeError |
| `UserInputExamples.FourOfThreeAccepted` | user_input.py:49 | "4" over three choices returns index 3 as written, and fails with the corrected bound |

## Left out

- The Django application, `deliberate_practice.py` and `settings.py` are not part of this model. `deliberate_practice.py` does console printing, timing and file saves around the operations modelled here.
- `Evaluation`, `ActivityEvaluation` and `POSSIBLE_SCORES` are not defined in `results.py`. They are not modelled.
- Printing: prompts, the numbered list of choices and retry messages are not modelled. The error messages are kept as text (`*ErrorMessage` functions), but nothing states properties of them.
- The file system: whether a file exists is the `Option` given to the loaders. A path that names a directory and encoding errors are not modelled. Newline translation on reading is modelled (`TextIO.UniversalNewlines`); on writing, text mode turns "\n" into the platform's line separator, which the model takes to be "\n". `save` returns the text it would write. `Practices` does not keep the path of its file.
- `datetime`: the type is a parameter. `isoformat` and `fromisoformat` are given as functions, and their round trip is assumed (`Results.RoundTrips`), not proved.
- `int()`: decimal digits outside ASCII are not accepted by the model.
- `PyText.ParseInt`: does not model CPython's limit on integer string conversion (4300 digits by default from Python 3.11, which the program requires). The model parses digit strings of any length. So a score line of more than 4300 digits loads here, where the program fails with "score wasn't an integer", and a count line that long fails here on the practice sets instead of with "Expected an integer".
- `PyText.IntToString`: does not model the same limit on `str()` and f-strings. The model writes any integer, where the program raises ValueError for one of more than 4300 digits, so `save` cannot write such a score.
- `PyText.ParseIntToString`: holds for every integer, including those of more than 4300 digits, which the program can neither write nor read.
- `Results.PracticeSetRoundTrip`: covers scores of any size, including those of more than 4300 digits, which `PracticeSet.save` cannot write.
- `Results.RoundTrip`: covers scores of any size, including those of more than 4300 digits, which `save` cannot write.
- `Routine.GetRandomActivity`: states only that the activity returned is one of the routine's. The uniform distribution of `random.choice` is not modelled.
- `Routine.GetActivityDescriptions`: sorts the keys rather than sorting the activities by key and then taking descriptions. Because a key is its description, the two give the same list.
- `PracticeSet.__eq__` is the datatype's equality on its three fields. `__repr__` is not modelled.
- The mock input of the tests takes a prompt argument. `fetch_input` takes none, and here it is simply the next line of a sequence.

## Findings

| source | as written | input that shows it | evidently intended | confidence | as-written member | corrected member |
|---|---|---|---|---|---|---|
| routine.py:23-24 | every line, blank or not, becomes an activity, so the emptiness check at routine.py:30 only rejects an empty file | an activities file "\n\n" loads as two activities with empty descriptions | blank lines are discarded, and a file of only blank lines is rejected, as routine_test.py:25-56 expects | high; not executed | `RoutineExamples.BlankLinesBecomeActivities` | `RoutineExamples.SkippingBlanksRejectsBlankFile` |
| results.py:75-79 | `add_practice_set` accepts any key, `save` writes an empty key as an empty line, and the load rejects that line (results.py:114-116) | an activity from a blank routine line, added and saved: the results file no longer loads | only one-line, non-empty keys reach the results, so what is saved loads back | high; not executed | `Session.BlankActivityBreaksResults` | `Session.ActivityFromRoutineReloads` |
| user_input.py:49 | `max_choice = len(choices) + 1`, so picks 1 to len(choices) + 1 are accepted | three choices and the input "4": index 3 is returned, which names no choice | `max_choice = len(choices)`, so the index returned always names a choice | high; not executed | `UserInput.ChoiceOnePastEndAccepted` | `UserInput.PromptForChoiceInRange` |

=== FILE: order.dfy ===
/**
 Python's ordering of `str` values: lexicographic on code points, the first differing character
 deciding and a proper prefix coming first. Sorting a list of strings with `sorted` is modelled by
 an insertion sort whose result is characterised as the one ascending permutation.
 */
module StringOrder {

  /** `a <= b` on Python strings. */
  predicate LessEq(a: string, b: string)
    decreases |a|
  {
    a == [] || (b != [] && (a[0] < b[0] || (a[0] == b[0] && LessEq(a[1..], b[1..]))))
  }

  lemma {:induction false} LessEqTotal(a: string, b: string)
    ensures LessEq(a, b) || LessEq(b, a)
    decreases |a|
  {
    if a != [] && b != [] && a[0] == b[0] {
      LessEqTotal(a[1..], b[1..]);
    }
  }

  lemma {:induction false} LessEqTransitive(a: string, b: string, c: string)
    requires LessEq(a, b) && LessEq(b, c)
    ensures LessEq(a, c)
    decreases |a|
  {
    if a != [] && a[0] == b[0] && b[0] == c[0] {
      LessEqTransitive(a[1..], b[1..], c[1..]);
    }
  }

  lemma {:induction false} LessEqAntisymmetric(a: string, b: string)
    requires LessEq(a, b) && LessEq(b, a)
    ensures a == b
    decreases |a|
  {
    if a != [] {
      LessEqAntisymmetric(a[1..], b[1..]);
      assert a == [a[0]] + a[1..] && b == [b[0]] + b[1..];
    }
  }

  predicate Sorted(s: seq<string>) {
    forall i, j :: 0 <= i < j < |s| ==> LessEq(s[i], s[j])
  }

  /** Places `x` into an ascending list, keeping it ascending. */
  function Insert(x: string, s: seq<string>): (r: seq<string>)
    requires Sorted(s)
    ensures Sorted(r)
    ensures multiset(r) == multiset(s) + multiset{x}
    decreases |s|
  {
    if s == [] || LessEq(x, s[0]) then
      assert forall j :: 0 <= j < |s| ==> LessEq(x, s[j]) by {
        forall j | 0 <= j < |s| ensures LessEq(x, s[j]) {
          if j > 0 { LessEqTransitive(x, s[0], s[j]); }
        }
      }
      ConsSorted(x, s);
      [x] + s
    else
      LessEqTotal(x, s[0]);
      var tail := Insert(x, s[1..]);
      assert s == [s[0]] + s[1..];
      assert forall j :: 0 <= j < |s[1..]| ==> LessEq(s[0], s[1..][j]) by {
        forall j | 0 <= j < |s[1..]| ensures LessEq(s[0], s[1..][j]) {
          assert s[1..][j] == s[j + 1];
        }
      }
      LowerBoundKept(s[0], x, s[1..], tail);
      ConsSorted(s[0], tail);
      [s[0]] + tail
  }

  /** An ascending list stays ascending behind a lower bound of all its elements. */
  lemma ConsSorted(lo: string, s: seq<string>)
    requires Sorted(s) && forall j :: 0 <= j < |s| ==> LessEq(lo, s[j])
    ensures Sorted([lo] + s)
  {
    var r := [lo] + s;
    forall i, j | 0 <= i < j < |r| ensures LessEq(r[i], r[j]) {
      assert r[j] == s[j - 1];
      if i > 0 { assert r[i] == s[i - 1]; }
    }
  }

  /** A lower bound of `x` and of every element of `s` bounds every element of a permutation
      of `s` with `x` added. */
  lemma LowerBoundKept(lo: string, x: string, s: seq<string>, t: seq<string>)
    requires LessEq(lo, x) && forall j :: 0 <= j < |s| ==> LessEq(lo, s[j])
    requires multiset(t) == multiset(s) + multiset{x}
    ensures forall j :: 0 <= j < |t| ==> LessEq(lo, t[j])
  {
    forall j | 0 <= j < |t| ensures LessEq(lo, t[j]) {
      assert t[j] in multiset(t);
      if t[j] != x {
        assert t[j] in multiset(s);
        var k :| 0 <= k < |s| && s[k] == t[j];
      }
    }
  }

  /** `sorted(s)` on a list of strings. */
  function Sort(s: seq<string>): (r: seq<string>)
    ensures Sorted(r)
    ensures multiset(r) == multiset(s)
    decreases |s|
  {
    if s == [] then []
    else
      assert s == [s[0]] + s[1..];
      Insert(s[0], Sort(s[1..]))
  }

  /** The least element of an ascending list is its first. */
  lemma SortedHeadIsLeast(s: seq<string>, x: string)
    requires Sorted(s) && x in multiset(s)
    ensures LessEq(s[0], x)
  {
    var k :| 0 <= k < |s| && s[k] == x;
    if k == 0 {
      LessEqTotal(x, x);
    }
  }

  /** Dropping the first element of an ascending list leaves an ascending list holding the rest. */
  lemma SortedTail(s: seq<string>)
    requires Sorted(s) && s != []
    ensures Sorted(s[1..])
    ensures multiset(s[1..]) == multiset(s) - multiset{s[0]}
  {
    assert s == [s[0]] + s[1..];
  }

  /** There is only one ascending arrangement of a collection of strings, so the result of
      `Sort` is exactly what Python's `sorted` returns. */
  lemma {:induction false} SortedPermutationUnique(a: seq<string>, b: seq<string>)
    requires Sorted(a) && Sorted(b) && multiset(a) == multiset(b)
    ensures a == b
    decreases |a|
  {
    if a != [] {
      assert |b| == |a| by { assert |multiset(a)| == |multiset(b)|; }
      assert a[0] in multiset(b) && b[0] in multiset(a);
      SortedHeadIsLeast(b, a[0]);
      SortedHeadIsLeast(a, b[0]);
      LessEqAntisymmetric(a[0], b[0]);
      SortedTail(a);
      SortedTail(b);
      SortedPermutationUnique(a[1..], b[1..]);
      forall i | 1 <= i < |a|
        ensures a[i] == b[i]
      {
        assert a[i] == a[1..][i - 1] && b[i] == b[1..][i - 1];
      }
    }
  }
}

=== FILE: pytext.dfy ===
/**
 Python's built-in text operations that the program relies on, over `string` (a sequence of
 Unicode scalar values): `str.isspace`, `str.strip`, `str.rstrip("\n")`, `str.strip("\n")`,
 `int(s)` for decimal strings and `str(n)` for integers.
 */
module PyText {
  import opened Wrappers

  /** `c.isspace()`: the characters `str.strip()` removes. */
  predicate IsSpace(c: char) {
    || ('\t' <= c <= '\r')
    || ('\U{1c}' <= c <= ' ')
    || c == '\U{85}' || c == '\U{a0}' || c == '\U{1680}'
    || ('\U{2000}' <= c <= '\U{200a}')
    || c == '\U{2028}' || c == '\U{2029}' || c == '\U{202f}' || c == '\U{205f}' || c == '\U{3000}'
  }

  /** The whitespace `int()` tolerates around a number: ASCII tab, line feed, vertical tab,
      form feed, carriage return and space, and every non-ASCII `isspace` character. The ASCII
      separators 0x1c-0x1f count as space for `strip()` but not for `int()`. */
  predicate IsIntSpace(c: char) {
    ('\t' <= c <= '\r') || c == ' ' || (c > '\U{7f}' && IsSpace(c))
  }

  predicate IsNewline(c: char) {
    c == '\n'
  }

  /** The first position from `i` on whose character is not dropped. */
  function LeftCut(s: string, drop: char -> bool, i: nat): (j: nat)
    requires i <= |s|
    ensures i <= j <= |s|
    ensures forall k :: i <= k < j ==> drop(s[k])
    ensures j < |s| ==> !drop(s[j])
    decreases |s| - i
  {
    if i < |s| && drop(s[i]) then LeftCut(s, drop, i + 1) else i
  }

  /** The end of the longest stretch before `j` that does not end in a dropped character. */
  function RightCut(s: string, drop: char -> bool, j: nat): (i: nat)
    requires j <= |s|
    ensures i <= j
    ensures forall k :: i <= k < j ==> drop(s[k])
    ensures i > 0 ==> !drop(s[i - 1])
    decreases j
  {
    if j > 0 && drop(s[j - 1]) then RightCut(s, drop, j - 1) else j
  }

  /** Removes the longest prefix of characters satisfying `drop`, as `s.lstrip(chars)` does. */
  function TrimLeft(s: string, drop: char -> bool): (r: string)
    ensures |r| <= |s| && r == s[|s| - |r|..]
    ensures forall i :: 0 <= i < |s| - |r| ==> drop(s[i])
    ensures r != [] ==> !drop(r[0])
  {
    s[LeftCut(s, drop, 0)..]
  }

  /** Removes the longest suffix of characters satisfying `drop`, as `s.rstrip(chars)` does. */
  function TrimRight(s: string, drop: char -> bool): (r: string)
    ensures |r| <= |s| && r == s[..|r|]
    ensures forall i :: |r| <= i < |s| ==> drop(s[i])
    ensures r != [] ==> !drop(r[|r| - 1])
  {
    s[..RightCut(s, drop, |s|)]
  }

  /** `s.strip()` */
  function Strip(s: string): string {
    TrimLeft(TrimRight(s, IsSpace), IsSpace)
  }

  /** `s.rstrip("\n")` */
  function RStripNewlines(s: string): string {
    TrimRight(s, IsNewline)
  }

  /** `s.strip("\n")` */
  function StripNewlines(s: string): string {
    TrimLeft(TrimRight(s, IsNewline), IsNewline)
  }

  /** Trimming both ends leaves a contiguous part of `s`, starting at `k`, that neither
      starts nor ends with a dropped character, and everything cut off was dropped. */
  lemma TrimBothSpec(s: string, drop: char -> bool) returns (k: nat)
    ensures var r := TrimLeft(TrimRight(s, drop), drop);
            && k + |r| <= |s| && r == s[k..k + |r|]
            && (forall i :: 0 <= i < k ==> drop(s[i]))
            && (forall i :: k + |r| <= i < |s| ==> drop(s[i]))
            && (r != [] ==> !drop(r[0]) && !drop(r[|r| - 1]))
  {
    var t := TrimRight(s, drop);
    var r := TrimLeft(t, drop);
    k := |t| - |r|;
    assert r == s[k..k + |r|];
    if r != [] {
      assert r[|r| - 1] == t[|t| - 1];
    }
  }

  /** `s.strip()` leaves a contiguous part of `s`, starting at `k`, that neither starts nor ends
      with whitespace, and everything it cut off on either side was whitespace. */
  lemma StripSpec(s: string) returns (k: nat)
    ensures var r := Strip(s);
            && k + |r| <= |s| && r == s[k..k + |r|]
            && (forall i :: 0 <= i < k ==> IsSpace(s[i]))
            && (forall i :: k + |r| <= i < |s| ==> IsSpace(s[i]))
            && (r != [] ==> !IsSpace(r[0]) && !IsSpace(r[|r| - 1]))
  {
    k := TrimBothSpec(s, IsSpace);
  }

  /** A string that does not start or end with a dropped character is left alone. */
  lemma TrimFixed(s: string, drop: char -> bool)
    requires s != [] ==> !drop(s[0]) && !drop(s[|s| - 1])
    ensures TrimRight(s, drop) == s
    ensures TrimLeft(s, drop) == s
  {
  }

  /** Trimming a trailing dropped character first changes nothing. */
  lemma TrimRightAppend(s: string, c: char, drop: char -> bool)
    requires drop(c)
    ensures TrimRight(s + [c], drop) == TrimRight(s, drop)
  {
    assert (s + [c])[..|s|] == s;
  }

  /** The result of `s.strip("\n")` is empty exactly when `s` consists of newlines only. */
  lemma StripNewlinesEmpty(s: string)
    ensures StripNewlines(s) == [] <==> forall i :: 0 <= i < |s| ==> s[i] == '\n'
  {
    var t := TrimRight(s, IsNewline);
    if t != [] {
      assert s[|t| - 1] == t[|t| - 1];
    }
  }

  // ---------------------------------------------------------------------------------------
  // Decimal integers
  // ---------------------------------------------------------------------------------------

  predicate IsDigit(c: char) {
    '0' <= c <= '9'
  }

  function DigitValue(c: char): nat
    requires IsDigit(c)
  {
    (c as int) - ('0' as int)
  }

  function DigitChar(d: nat): (c: char)
    requires d < 10
    ensures IsDigit(c) && DigitValue(c) == d
  {
    ('0' as int + d) as char
  }

  /** The digit part `int()` accepts: ASCII digits, where a single `_` may stand between two
      digits. */
  predicate IsDigitGroups(s: string) {
    && |s| > 0
    && (forall i :: 0 <= i < |s| ==> IsDigit(s[i]) || s[i] == '_')
    && (forall i :: 0 <= i < |s| && s[i] == '_' ==> 0 < i < |s| - 1 && IsDigit(s[i - 1]) && IsDigit(s[i + 1]))
  }

  /** Value of a run of digits and underscores, underscores ignored. */
  function DecimalValue(s: string): nat
    requires forall i :: 0 <= i < |s| ==> IsDigit(s[i]) || s[i] == '_'
  {
    if s == [] then 0
    else if s[|s| - 1] == '_' then DecimalValue(s[..|s| - 1])
    else DecimalValue(s[..|s| - 1]) * 10 + DigitValue(s[|s| - 1])
  }

  /** `int(s)`: None where Python raises ValueError. */
  function ParseInt(s: string): Option<int> {
    ParseSignedDigits(TrimLeft(TrimRight(s, IsIntSpace), IsIntSpace))
  }

  /** What `int()` accepts once surrounding whitespace is gone: an optional sign and digit groups. */
  function ParseSignedDigits(t: string): Option<int> {
    if |t| > 0 && (t[0] == '-' || t[0] == '+') then
      var digits := t[1..];
      if IsDigitGroups(digits) then
        var v: int := DecimalValue(digits);
        Some(if t[0] == '-' then -v else v)
      else None
    else if IsDigitGroups(t) then Some(DecimalValue(t))
    else None
  }

  /** `str(n)` for a natural number. */
  function NatToString(n: nat): (r: string)
    ensures |r| > 0 && forall i :: 0 <= i < |r| ==> IsDigit(r[i])
    ensures DecimalValue(r) == n
  {
    if n < 10 then [DigitChar(n)]
    else
      var prefix := NatToString(n / 10);
      var r := prefix + [DigitChar(n % 10)];
      assert r[..|r| - 1] == prefix;
      r
  }

  /** `str(n)` writes the canonical decimal form: a single digit for n below ten, and
      otherwise no leading zero. */
  lemma {:induction false} NatToStringCanonical(n: nat)
    ensures var r := NatToString(n);
            && (|r| == 1 <==> n < 10)
            && (r[0] == '0' <==> n == 0)
            && (|r| > 1 ==> r[0] != '0')
  {
    if n >= 10 {
      NatToStringCanonical(n / 10);
      assert NatToString(n)[0] == NatToString(n / 10)[0];
    }
  }

  /** `str(n)` */
  function IntToString(n: int): string {
    if n < 0 then "-" + NatToString(-n) else NatToString(n)
  }

  /** `str(n)` is one non-empty line: it holds no newline, no '\r' and no surrounding
      whitespace. */
  lemma IntToStringIsOneLine(n: int)
    ensures var r := IntToString(n);
            && r != []
            && '\n' !in r && '\r' !in r
            && !IsSpace(r[0]) && !IsSpace(r[|r| - 1])
  {
    var r := IntToString(n);
    if n < 0 {
      assert r[|r| - 1] == NatToString(-n)[|NatToString(-n)| - 1];
    }
    forall i | 0 <= i < |r|
      ensures r[i] != '\n' && r[i] != '\r'
    {
      if n < 0 && i > 0 {
        assert r[i] == NatToString(-n)[i - 1];
      }
    }
  }

  /** Whitespace around a number does not change what `int()` reads; `trimmed` is what is left
      once it is gone. */
  lemma ParseIntTrimmed(s: string, suffix: string, trimmed: string)
    requires trimmed == TrimLeft(TrimRight(s + suffix, IsIntSpace), IsIntSpace)
    requires suffix == "" || suffix == "\n"
    requires s != [] && !IsIntSpace(s[0]) && !IsIntSpace(s[|s| - 1])
    ensures trimmed == s
  {
    if suffix == "\n" {
      TrimRightAppend(s, '\n', IsIntSpace);
    } else {
      assert s + suffix == s;
    }
    TrimFixed(s, IsIntSpace);
  }

  lemma ParseSignedDigitsToString(n: int)
    ensures ParseSignedDigits(IntToString(n)) == Some(n)
  {
    var r := IntToString(n);
    if n < 0 {
      var d := NatToString(-n);
      assert r[1..] == d;
      assert IsDigitGroups(d);
    } else {
      assert IsDigitGroups(r);
    }
  }

  /** `int(str(n)) == n`, also when the line still carries its trailing newline, as
      `int(f.readline())` sees it. */
  lemma ParseIntToString(n: int)
    ensures ParseInt(IntToString(n)) == Some(n)
    ensures ParseInt(IntToString(n) + "\n") == Some(n)
  {
    ParseIntWithSuffix(n, "");
    assert IntToString(n) + "" == IntToString(n);
    ParseIntWithSuffix(n, "\n");
  }

  /** One case of `ParseIntToString`: `str(n)` followed by nothing or by a newline. */
  lemma ParseIntWithSuffix(n: int, suffix: string)
    requires suffix == "" || suffix == "\n"
    ensures ParseInt(IntToString(n) + suffix) == Some(n)
  {
    var r := IntToString(n);
    IntToStringIsOneLine(n);
    assert !IsIntSpace(r[0]) && !IsIntSpace(r[|r| - 1]);
    var t := TrimLeft(TrimRight(r + suffix, IsIntSpace), IsIntSpace);
    ParseIntTrimmed(r, suffix, t);
    assert ParseInt(r + suffix) == ParseSignedDigits(r);
    ParseSignedDigitsToString(n);
  }

  /** `int(s)` raises for a string holding a character that cannot be part of a number: one
      that is neither a digit, an underscore, a sign nor whitespace `int()` tolerates. */
  lemma ParseIntRejectsStrayChar(s: string, i: nat)
    requires i < |s| && !IsDigit(s[i]) && s[i] != '_' && s[i] != '+' && s[i] != '-' && !IsIntSpace(s[i])
    ensures ParseInt(s) == None
  {
    var u := TrimRight(s, IsIntSpace);
    assert i < |u|;
    assert u[i] == s[i];
    var t := TrimLeft(u, IsIntSpace);
    var j := |u| - |t|;
    assert j <= i;
    assert t[i - j] == s[i];
    if |t| > 0 && (t[0] == '-' || t[0] == '+') {
      assert t[1..][i - j - 1] == s[i];
    }
  }

}

=== FILE: results.dfy ===
/**
 Practice results: the store of completed practice sets and its file format. The file holds a
 first line with the number N of practice sets, then three lines per practice set (activity key,
 integer score, ISO-8601 date-time), in order.

 The date-time type is a parameter `T`; `DateTimeFormat` supplies `datetime.isoformat` and
 `datetime.fromisoformat` for it, and `RoundTrips` states what the model assumes of them.
 */
module Results {
  import opened Wrappers
  import opened PyText
  import TextIO
  import Routine

  /** An activity that was practised and scored at a point in time. Equality of the datatype
      is the source's three-field equality. */
  datatype PracticeSet<T> = PracticeSet(activityKey: string, score: int, dateTime: T)

  /** `datetime.isoformat()` and `datetime.fromisoformat()`; None where the latter raises. */
  datatype DateTimeFormat<!T> = DateTimeFormat(isoFormat: T -> string, fromIsoFormat: string -> Option<T>)

  /** Assumed of the date-time format: every formatted date-time is a non-empty single line,
      free of '\r', that parses back to the same date-time. */
  ghost predicate RoundTrips<T(!new)>(fmt: DateTimeFormat<T>) {
    forall t :: && fmt.isoFormat(t) != []
                && '\n' !in fmt.isoFormat(t)
                && '\r' !in fmt.isoFormat(t)
                && fmt.fromIsoFormat(fmt.isoFormat(t)) == Some(t)
  }

  /** A key the practices file can carry: one non-empty line with no '\r', which reading the
      file in universal-newlines mode would turn into a line break. */
  predicate IsStorableKey(key: string) {
    key != [] && '\n' !in key && '\r' !in key
  }

  /** All practice sets held, in the order they were added or loaded. */
  datatype Practices<T> = Practices(practiceSets: seq<PracticeSet<T>>)

  datatype PracticeSetLoadingError =
    | NoActivityKey
    | NoScore
    | ScoreNotInteger(got: string)
    | NoDateTime
    | DateTimeNotIso(got: string)

  function PracticeSetLoadingErrorMessage(e: PracticeSetLoadingError): string {
    match e
    case NoActivityKey => "No value for activity_key"
    case NoScore => "No value for score"
    case ScoreNotInteger(got) => "score wasn't an integer, got \"" + got + "\""
    case NoDateTime => "No value for date_time"
    case DateTimeNotIso(got) => "datetime wasn't in iso format, got \"" + got + "\""
  }

  datatype InvalidPracticesFileError =
    | CountNotInteger(got: string)
    | PracticeSetLoadFailed(cause: PracticeSetLoadingError)
    | DataRemaining(found: string)

  function InvalidPracticesFileErrorMessage(e: InvalidPracticesFileError): string {
    match e
    case CountNotInteger(got) => "Expected an integer for number of practice sets, instead got \"" + got + "\""
    case PracticeSetLoadFailed(_) => "Failed to load practice_set"
    case DataRemaining(found) => "Unexpected data remaining after load completed. Found:\n" + found
  }

  // ---------------------------------------------------------------------------------------
  // One practice set
  // ---------------------------------------------------------------------------------------

  /** The `k`-th line from the read position, its trailing newline removed, as
      `f.readline().rstrip("\n")` returns it after `k` earlier calls; "" past the end. */
  function Field(s: string, k: nat): string {
    RStripNewlines(TextIO.ReadLine(TextIO.SkipLines(s, k)).0)
  }

  /** `PracticeSet.save(f)`: three newline-terminated lines. */
  function SavePracticeSet<T>(ps: PracticeSet<T>, fmt: DateTimeFormat<T>): string {
    ps.activityKey + "\n" + IntToString(ps.score) + "\n" + fmt.isoFormat(ps.dateTime) + "\n"
  }

  /** What `load_from_file_object` decides once its three lines are read: `key`, `scoreStr` and
      `dateStr` are those lines without their newline, and `rest` is what follows them. */
  function DecideFields<T>(key: string, scoreStr: string, dateStr: string, rest: string, fmt: DateTimeFormat<T>)
    : Result<(PracticeSet<T>, string), PracticeSetLoadingError>
  {
    if key == [] then Failure(NoActivityKey)
    else if scoreStr == [] then Failure(NoScore)
    else
      match ParseInt(scoreStr)
      case None => Failure(ScoreNotInteger(scoreStr))
      case Some(score) =>
        if dateStr == [] then Failure(NoDateTime)
        else
          match fmt.fromIsoFormat(dateStr)
          case None => Failure(DateTimeNotIso(dateStr))
          case Some(dateTime) => Success((PracticeSet(key, score, dateTime), rest))
  }

  /** `PracticeSet.load_from_file_object(f)` on a stream whose unread content is `s`: the
      practice set and the content left unread. The source reads the score and date-time
      lines only once the earlier checks pass; since reading does not change the content,
      reading the three lines first and then checking gives the same result. */
  function LoadPracticeSet<T>(s: string, fmt: DateTimeFormat<T>): Result<(PracticeSet<T>, string), PracticeSetLoadingError>
  {
    var (keyLine, afterKey) := TextIO.ReadLine(s);
    var (scoreLine, afterScore) := TextIO.ReadLine(afterKey);
    var (dateLine, afterDate) := TextIO.ReadLine(afterScore);
    DecideFields(RStripNewlines(keyLine), RStripNewlines(scoreLine), RStripNewlines(dateLine), afterDate, fmt)
  }

  /** Loading a practice set decides on the first three fields and leaves the content after
      the third line unread. */
  lemma LoadPracticeSetByFields<T>(s: string, fmt: DateTimeFormat<T>)
    ensures LoadPracticeSet(s, fmt) == DecideFields(Field(s, 0), Field(s, 1), Field(s, 2), TextIO.SkipLines(s, 3), fmt)
  {
    FirstThreeFields(s);
  }

  /** The first three fields are the first three lines read in turn, and the three lines
      skipped end where the third one does. */
  lemma FirstThreeFields(s: string)
    ensures var (keyLine, afterKey) := TextIO.ReadLine(s);
            var (scoreLine, afterScore) := TextIO.ReadLine(afterKey);
            var (dateLine, afterDate) := TextIO.ReadLine(afterScore);
            && Field(s, 0) == RStripNewlines(keyLine)
            && Field(s, 1) == RStripNewlines(scoreLine)
            && Field(s, 2) == RStripNewlines(dateLine)
            && TextIO.SkipLines(s, 3) == afterDate
  {
    SkipThreeLines(s);
  }

  /** The positions after the first, second and third line. */
  lemma SkipThreeLines(s: string)
    ensures var afterKey := TextIO.ReadLine(s).1;
            var afterScore := TextIO.ReadLine(afterKey).1;
            && TextIO.SkipLines(s, 0) == s
            && TextIO.SkipLines(s, 1) == afterKey
            && TextIO.SkipLines(s, 2) == afterScore
            && TextIO.SkipLines(s, 3) == TextIO.ReadLine(afterScore).1
  {
    var afterKey := TextIO.ReadLine(s).1;
    var afterScore := TextIO.ReadLine(afterKey).1;
    assert TextIO.SkipLines(s, 2) == TextIO.SkipLines(afterKey, 1) == TextIO.SkipLines(afterScore, 0);
    assert TextIO.SkipLines(s, 3) == TextIO.SkipLines(afterKey, 2) == TextIO.SkipLines(afterScore, 1);
  }

  /** The checks of `load_from_file_object` run against the first three lines in turn: the
      key first, then the score (present, then an integer), then the date-time (present,
      then ISO format). The first check that fails decides the error, and when none fails
      the three fields make the practice set and exactly three lines are consumed. */
  lemma LoadPracticeSetChecksInOrder<T>(s: string, fmt: DateTimeFormat<T>)
    ensures var r, key, score, date := LoadPracticeSet(s, fmt), Field(s, 0), Field(s, 1), Field(s, 2);
            && (r == Failure(NoActivityKey) <==> key == [])
            && (r == Failure(NoScore) <==> key != [] && score == [])
            && (r == Failure(ScoreNotInteger(score)) <==> key != [] && score != [] && ParseInt(score).None?)
            && (r == Failure(NoDateTime) <==> key != [] && score != [] && ParseInt(score).Some? && date == [])
            && (r == Failure(DateTimeNotIso(date)) <==>
                  key != [] && score != [] && ParseInt(score).Some? && date != [] && fmt.fromIsoFormat(date).None?)
            && (r.Success? <==>
                  key != [] && score != [] && ParseInt(score).Some? && date != [] && fmt.fromIsoFormat(date).Some?)
            && (r.Success? ==>
                  r.value == (PracticeSet(key, ParseInt(score).value, fmt.fromIsoFormat(date).value), TextIO.SkipLines(s, 3)))
  {
    LoadPracticeSetByFields(s, fmt);
  }

  /** One newline-terminated line, its newline removed again. */
  lemma RStripTerminated(line: string)
    requires '\n' !in line
    ensures RStripNewlines(line + "\n") == line
  {
    TrimRightAppend(line, '\n', IsNewline);
    if line != [] {
      assert line[|line| - 1] in line;
    }
    TrimFixed(line, IsNewline);
  }

  /** Three well-formed lines in front of `rest` load as one practice set. */
  lemma LoadThreeLines<T>(s: string, key: string, score: string, date: string, afterKey: string, afterScore: string, rest: string,
                          fmt: DateTimeFormat<T>)
    requires TextIO.ReadLine(s) == (key + "\n", afterKey)
    requires TextIO.ReadLine(afterKey) == (score + "\n", afterScore)
    requires TextIO.ReadLine(afterScore) == (date + "\n", rest)
    requires '\n' !in key && '\n' !in score && '\n' !in date
    requires key != [] && score != [] && date != []
    requires ParseInt(score).Some? && fmt.fromIsoFormat(date).Some?
    ensures LoadPracticeSet(s, fmt) == Success((PracticeSet(key, ParseInt(score).value, fmt.fromIsoFormat(date).value), rest))
  {
    RStripTerminated(key);
    RStripTerminated(score);
    RStripTerminated(date);
  }

  /** Reading back what `PracticeSet.save` wrote gives an equal practice set and leaves what
      followed it unread. */
  lemma PracticeSetRoundTrip<T(!new)>(ps: PracticeSet<T>, rest: string, fmt: DateTimeFormat<T>)
    requires RoundTrips(fmt) && IsStorableKey(ps.activityKey)
    ensures LoadPracticeSet(SavePracticeSet(ps, fmt) + rest, fmt) == Success((ps, rest))
  {
    var key, score, date := ps.activityKey, IntToString(ps.score), fmt.isoFormat(ps.dateTime);
    IntToStringIsOneLine(ps.score);
    var afterScore := date + "\n" + rest;
    var afterKey := score + "\n" + afterScore;
    assert SavePracticeSet(ps, fmt) + rest == key + "\n" + afterKey;
    TextIO.ReadTerminatedLine(key, afterKey);
    TextIO.ReadTerminatedLine(score, afterScore);
    TextIO.ReadTerminatedLine(date, rest);
    ParseIntToString(ps.score);
    LoadThreeLines(SavePracticeSet(ps, fmt) + rest, key, score, date, afterKey, afterScore, rest, fmt);
  }

  // ---------------------------------------------------------------------------------------
  // The whole store
  // ---------------------------------------------------------------------------------------

  /** The practice sets' lines, one record after the other, followed by `rest`; `save`
      writes one practice set. */
  function SaveEachThen<T>(sets: seq<PracticeSet<T>>, rest: string, save: PracticeSet<T> -> string): string {
    if sets == [] then rest else save(sets[0]) + SaveEachThen(sets[1..], rest, save)
  }

  /** `PracticeSet.save` with the date-time format fixed. */
  function Saver<T>(fmt: DateTimeFormat<T>): PracticeSet<T> -> string {
    ps => SavePracticeSet(ps, fmt)
  }

  /** `PracticeSet.load_from_file_object` with the date-time format fixed. */
  function Loader<T>(fmt: DateTimeFormat<T>): string -> Result<(PracticeSet<T>, string), PracticeSetLoadingError> {
    s => LoadPracticeSet(s, fmt)
  }

  /** The lines `Practices.save` writes after the count line. */
  function SavePracticeSets<T>(sets: seq<PracticeSet<T>>, fmt: DateTimeFormat<T>): string {
    SaveEachThen(sets, "", Saver(fmt))
  }

  /** `Practices.save()`: the text written to the practices file. Its first line is the
      number of practice sets; the practice sets' lines follow. */
  function Save<T>(p: Practices<T>, fmt: DateTimeFormat<T>): (text: string)
    ensures TextIO.ReadLine(text) == (IntToString(|p.practiceSets|) + "\n", SavePracticeSets(p.practiceSets, fmt))
  {
    IntToStringIsOneLine(|p.practiceSets|);
    TextIO.ReadTerminatedLine(IntToString(|p.practiceSets|), SavePracticeSets(p.practiceSets, fmt));
    IntToString(|p.practiceSets|) + "\n" + SavePracticeSets(p.practiceSets, fmt)
  }

  /** The loop of `Practices.__init__`: `n` practice sets read in turn with `load`. */
  function LoadEach<T>(s: string, n: nat, load: string -> Result<(PracticeSet<T>, string), PracticeSetLoadingError>)
    : (r: Result<(seq<PracticeSet<T>>, string), PracticeSetLoadingError>)
    ensures r.Success? ==> |r.value.0| == n
    decreases n
  {
    if n == 0 then Success(([], s))
    else
      match load(s)
      case Failure(e) => Failure(e)
      case Success((ps, rest)) =>
        match LoadEach(rest, n - 1, load)
        case Failure(e) => Failure(e)
        case Success((more, left)) => Success(([ps] + more, left))
  }

  function LoadPracticeSets<T>(s: string, n: nat, fmt: DateTimeFormat<T>): Result<(seq<PracticeSet<T>>, string), PracticeSetLoadingError> {
    LoadEach(s, n, Loader(fmt))
  }

  /** `Practices(practices_file)`, where `contents` is None when the file does not exist. A
      negative count reads no practice set, as `range` of it is empty. */
  function Load<T>(contents: Option<string>, fmt: DateTimeFormat<T>): (r: Result<Practices<T>, InvalidPracticesFileError>)
    ensures contents.None? ==> r == Success(Practices([]))
    ensures contents == Some("") ==> r == Failure(CountNotInteger(""))
    ensures contents.Some? && ParseInt(TextIO.ReadLine(contents.value).0).None? ==>
              r == Failure(CountNotInteger(TextIO.ReadLine(contents.value).0))
    ensures r.Success? && contents.Some? ==>
              var n := ParseInt(TextIO.ReadLine(contents.value).0);
              n.Some? && |r.value.practiceSets| == if n.value < 0 then 0 else n.value
  {
    match contents
    case None => Success(Practices([]))
    case Some(text) =>
      var (countLine, afterCount) := TextIO.ReadLine(text);
      match ParseInt(countLine)
      case None => Failure(CountNotInteger(countLine))
      case Some(n) =>
        FinishLoad(LoadPracticeSets(afterCount, if n < 0 then 0 else n, fmt))
  }

  /** The end of `Practices.__init__`: a failed practice set fails the load, and so does any
      data but newlines after the last practice set. */
  function FinishLoad<T>(r: Result<(seq<PracticeSet<T>>, string), PracticeSetLoadingError>): (res: Result<Practices<T>, InvalidPracticesFileError>)
    ensures r.Failure? ==> res == Failure(PracticeSetLoadFailed(r.error))
    ensures r.Success? ==> (res.Success? <==> StripNewlines(r.value.1) == [])
    ensures r.Success? && res.Failure? ==> res.error == DataRemaining(StripNewlines(r.value.1))
    ensures res.Success? ==> res.value.practiceSets == r.value.0
  {
    match r
    case Failure(e) => Failure(PracticeSetLoadFailed(e))
    case Success((sets, rest)) =>
      var remaining := StripNewlines(rest);
      if remaining != [] then Failure(DataRemaining(remaining)) else Success(Practices(sets))
  }

  /** A file whose first line is the count `n` loads the practice sets that follow it; a
      negative count reads none. */
  lemma LoadCountLine<T>(n: int, body: string, fmt: DateTimeFormat<T>)
    ensures Load(Some(IntToString(n) + "\n" + body), fmt) == FinishLoad(LoadPracticeSets(body, if n < 0 then 0 else n, fmt))
  {
    IntToStringIsOneLine(n);
    TextIO.ReadTerminatedLine(IntToString(n), body);
    ParseIntToString(n);
  }

  /** `get_num_practice_sets()`: the number of practice sets `get_practice_sets()` returns. */
  function GetNumPracticeSets<T>(p: Practices<T>): (n: nat)
    ensures n == |GetPracticeSets(p)|
  {
    |p.practiceSets|
  }

  /** `get_practice_sets()` */
  function GetPracticeSets<T>(p: Practices<T>): seq<PracticeSet<T>> {
    p.practiceSets
  }

  /** `add_practice_set(act, score, date_time)`: appends one practice set keyed by the
      activity's key, leaving the earlier ones as they were. Nothing is written to the file. */
  function AddPracticeSet<T>(p: Practices<T>, act: Routine.Activity, score: int, dateTime: T): (r: Practices<T>)
    ensures GetNumPracticeSets(r) == GetNumPracticeSets(p) + 1
    ensures GetPracticeSets(r)[..GetNumPracticeSets(p)] == GetPracticeSets(p)
    ensures GetPracticeSets(r)[GetNumPracticeSets(p)] == PracticeSet(Routine.GetKey(act), score, dateTime)
  {
    Practices(p.practiceSets + [PracticeSet(Routine.GetKey(act), score, dateTime)])
  }

  // ---------------------------------------------------------------------------------------
  // Saving and loading the store
  // ---------------------------------------------------------------------------------------

  /** Every key in the store can be carried by the file format. */
  predicate AllKeysStorable<T>(sets: seq<PracticeSet<T>>) {
    forall i :: 0 <= i < |sets| ==> IsStorableKey(sets[i].activityKey)
  }

  lemma {:induction false} SaveEachThenAppend<T>(a: seq<PracticeSet<T>>, b: seq<PracticeSet<T>>, rest: string, save: PracticeSet<T> -> string)
    ensures SaveEachThen(a + b, rest, save) == SaveEachThen(a, SaveEachThen(b, rest, save), save)
    decreases |a|
  {
    if a != [] {
      assert (a + b)[1..] == a[1..] + b;
      SaveEachThenAppend(a[1..], b, rest, save);
    } else {
      assert a + b == b;
    }
  }

  lemma {:induction false} SaveEachThenIsConcat<T>(sets: seq<PracticeSet<T>>, rest: string, save: PracticeSet<T> -> string)
    ensures SaveEachThen(sets, rest, save) == SaveEachThen(sets, "", save) + rest
    decreases |sets|
  {
    if sets == [] {
      assert "" + rest == rest;
    } else {
      SaveEachThenIsConcat(sets[1..], rest, save);
      assert save(sets[0]) + (SaveEachThen(sets[1..], "", save) + rest)
          == (save(sets[0]) + SaveEachThen(sets[1..], "", save)) + rest;
    }
  }

  /** `lines` are the three lines of each practice set of `sets`, in order: its key, its
      score and its date-time, each ending in a newline. */
  predicate AreRecordLines<T>(lines: seq<string>, sets: seq<PracticeSet<T>>, fmt: DateTimeFormat<T>) {
    && |lines| == 3 * |sets|
    && forall i :: 0 <= i < |sets| ==>
         && lines[3 * i] == sets[i].activityKey + "\n"
         && lines[3 * i + 1] == IntToString(sets[i].score) + "\n"
         && lines[3 * i + 2] == fmt.isoFormat(sets[i].dateTime) + "\n"
  }

  /** One saved practice set, read line by line, gives its three lines first. */
  lemma SavedRecordLines<T(!new)>(ps: PracticeSet<T>, more: string, fmt: DateTimeFormat<T>)
    requires RoundTrips(fmt) && IsStorableKey(ps.activityKey)
    ensures TextIO.ReadLines(SavePracticeSet(ps, fmt) + more)
            == [ps.activityKey + "\n", IntToString(ps.score) + "\n", fmt.isoFormat(ps.dateTime) + "\n"] + TextIO.ReadLines(more)
  {
    var key, score, date := ps.activityKey, IntToString(ps.score), fmt.isoFormat(ps.dateTime);
    IntToStringIsOneLine(ps.score);
    assert SavePracticeSet(ps, fmt) + more == key + "\n" + (score + "\n" + (date + "\n" + more));
    TextIO.ReadLinesOfTerminated(key, score + "\n" + (date + "\n" + more));
    TextIO.ReadLinesOfTerminated(score, date + "\n" + more);
    TextIO.ReadLinesOfTerminated(date, more);
  }

  /** Three lines of a practice set in front of the lines of the rest. */
  lemma RecordLinesCons<T>(ps: PracticeSet<T>, sets: seq<PracticeSet<T>>, tail: seq<string>, fmt: DateTimeFormat<T>)
    requires AreRecordLines(tail, sets, fmt)
    ensures AreRecordLines([ps.activityKey + "\n", IntToString(ps.score) + "\n", fmt.isoFormat(ps.dateTime) + "\n"] + tail, [ps] + sets, fmt)
  {
    var head := [ps.activityKey + "\n", IntToString(ps.score) + "\n", fmt.isoFormat(ps.dateTime) + "\n"];
    var lines, all := head + tail, [ps] + sets;
    forall i | 1 <= i < |all|
      ensures lines[3 * i] == all[i].activityKey + "\n"
      ensures lines[3 * i + 1] == IntToString(all[i].score) + "\n"
      ensures lines[3 * i + 2] == fmt.isoFormat(all[i].dateTime) + "\n"
    {
      assert all[i] == sets[i - 1];
      ShiftedTriple(head, tail, i);
    }
  }

  /** Behind three lines, the `i`-th triple is the tail's `(i - 1)`-th. */
  lemma ShiftedTriple(head: seq<string>, tail: seq<string>, i: int)
    requires |head| == 3 && 1 <= i && 3 * i + 2 < 3 + |tail|
    ensures (head + tail)[3 * i] == tail[3 * (i - 1)]
    ensures (head + tail)[3 * i + 1] == tail[3 * (i - 1) + 1]
    ensures (head + tail)[3 * i + 2] == tail[3 * (i - 1) + 2]
  {
  }

  /** What `save` writes after the count line, read back line by line: three lines per
      practice set, in list order, holding its key, its score and its date-time. */
  lemma {:induction false} SavedLines<T(!new)>(sets: seq<PracticeSet<T>>, fmt: DateTimeFormat<T>)
    requires RoundTrips(fmt) && AllKeysStorable(sets)
    ensures AreRecordLines(TextIO.ReadLines(SavePracticeSets(sets, fmt)), sets, fmt)
    decreases |sets|
  {
    if sets != [] {
      var more := SavePracticeSets(sets[1..], fmt);
      assert IsStorableKey(sets[0].activityKey);
      assert SavePracticeSets(sets, fmt) == SavePracticeSet(sets[0], fmt) + more;
      SavedRecordLines(sets[0], more, fmt);
      SavedLines(sets[1..], fmt);
      RecordLinesCons(sets[0], sets[1..], TextIO.ReadLines(more), fmt);
      HeadAndTail(sets);
    }
  }

  /** A non-empty list is its first element followed by the rest. */
  lemma HeadAndTail<A>(s: seq<A>)
    requires s != []
    ensures [s[0]] + s[1..] == s
  {
  }

  /** `sets` in front of the practice sets a later read yields; its failure unchanged. */
  function Prepend<T>(sets: seq<PracticeSet<T>>, r: Result<(seq<PracticeSet<T>>, string), PracticeSetLoadingError>): Result<(seq<PracticeSet<T>>, string), PracticeSetLoadingError> {
    match r
    case Failure(e) => Failure(e)
    case Success((more, left)) => Success((sets + more, left))
  }

  lemma PrependTwice<T>(ps: PracticeSet<T>, sets: seq<PracticeSet<T>>, r: Result<(seq<PracticeSet<T>>, string), PracticeSetLoadingError>)
    ensures Prepend([ps], Prepend(sets, r)) == Prepend([ps] + sets, r)
  {
    if r.Success? {
      assert [ps] + (sets + r.value.0) == [ps] + sets + r.value.0;
    }
  }

  /** `load` reads back what `save` wrote for `ps`, whatever follows it. */
  ghost predicate ReadsBack<T>(load: string -> Result<(PracticeSet<T>, string), PracticeSetLoadingError>, save: PracticeSet<T> -> string, ps: PracticeSet<T>) {
    forall tail :: load(save(ps) + tail) == Success((ps, tail))
  }

  /** When every practice set is read back on its own, reading `|sets| + k` practice sets
      from their saved lines followed by `rest` gives `sets` and then what reading `k`
      practice sets from `rest` gives. */
  lemma {:induction false} EachRoundTrip<T>(sets: seq<PracticeSet<T>>, rest: string, k: nat,
                                             save: PracticeSet<T> -> string,
                                             load: string -> Result<(PracticeSet<T>, string), PracticeSetLoadingError>)
    requires forall i :: 0 <= i < |sets| ==> ReadsBack(load, save, sets[i])
    ensures LoadEach(SaveEachThen(sets, rest, save), |sets| + k, load) == Prepend(sets, LoadEach(rest, k, load))
    decreases |sets|
  {
    var r := LoadEach(rest, k, load);
    if sets == [] {
      if r.Success? {
        assert sets + r.value.0 == r.value.0;
      }
    } else {
      var tail := SaveEachThen(sets[1..], rest, save);
      assert ReadsBack(load, save, sets[0]);
      assert load(save(sets[0]) + tail) == Success((sets[0], tail));
      EachRoundTrip(sets[1..], rest, k, save, load);
      PrependTwice(sets[0], sets[1..], r);
      HeadAndTail(sets);
    }
  }

  /** Every practice set with a storable key reads back on its own. */
  lemma AllReadBack<T(!new)>(sets: seq<PracticeSet<T>>, fmt: DateTimeFormat<T>)
    requires RoundTrips(fmt) && AllKeysStorable(sets)
    ensures forall i :: 0 <= i < |sets| ==> ReadsBack(Loader(fmt), Saver(fmt), sets[i])
  {
    forall i | 0 <= i < |sets|
      ensures ReadsBack(Loader(fmt), Saver(fmt), sets[i])
    {
      forall tail: string
        ensures Loader(fmt)(Saver(fmt)(sets[i]) + tail) == Success((sets[i], tail))
      {
        PracticeSetRoundTrip(sets[i], tail, fmt);
      }
    }
  }

  /** When every practice set of `sets` is read back on its own and reading from `rest` fails,
      reading more than `|sets|` practice sets from their saved lines followed by `rest` fails
      in the same way. */
  lemma {:induction false} EachThenFailure<T>(sets: seq<PracticeSet<T>>, rest: string, n: nat, e: PracticeSetLoadingError,
                                              save: PracticeSet<T> -> string,
                                              load: string -> Result<(PracticeSet<T>, string), PracticeSetLoadingError>)
    requires forall i :: 0 <= i < |sets| ==> ReadsBack(load, save, sets[i])
    requires n > |sets| && load(rest) == Failure(e)
    ensures LoadEach(SaveEachThen(sets, rest, save), n, load) == Failure(e)
    decreases |sets|
  {
    if sets != [] {
      var tail := SaveEachThen(sets[1..], rest, save);
      assert ReadsBack(load, save, sets[0]);
      assert load(save(sets[0]) + tail) == Success((sets[0], tail));
      EachThenFailure(sets[1..], rest, n - 1, e, save, load);
    }
  }

  /** Reading `|sets| + k` practice sets from saved `sets` followed by `rest` gives back
      `sets` and then whatever reading `k` practice sets from `rest` gives. */
  lemma PracticeSetsRoundTrip<T(!new)>(sets: seq<PracticeSet<T>>, rest: string, k: nat, fmt: DateTimeFormat<T>)
    requires RoundTrips(fmt) && AllKeysStorable(sets)
    ensures LoadPracticeSets(SavePracticeSets(sets, fmt) + rest, |sets| + k, fmt)
            == Prepend(sets, LoadPracticeSets(rest, k, fmt))
  {
    AllReadBack(sets, fmt);
    SaveEachThenIsConcat(sets, rest, Saver(fmt));
    EachRoundTrip(sets, rest, k, Saver(fmt), Loader(fmt));
  }

  /** Adding a practice set whose key is storable keeps every key storable. */
  lemma AddKeepsKeysStorable<T>(p: Practices<T>, act: Routine.Activity, score: int, dateTime: T)
    requires AllKeysStorable(p.practiceSets) && IsStorableKey(Routine.GetKey(act))
    ensures AllKeysStorable(AddPracticeSet(p, act, score, dateTime).practiceSets)
  {
    var q := AddPracticeSet(p, act, score, dateTime);
    forall k | 0 <= k < |q.practiceSets|
      ensures IsStorableKey(q.practiceSets[k].activityKey)
    {
      if k < |p.practiceSets| {
        assert q.practiceSets[k] == p.practiceSets[k];
      }
    }
  }

  /** A store that loads back keeps loading back once a practice set with a storable key is
      added. */
  lemma AddedPracticeSetReloads<T(!new)>(p: Practices<T>, act: Routine.Activity, score: int, dateTime: T, fmt: DateTimeFormat<T>)
    requires RoundTrips(fmt) && AllKeysStorable(p.practiceSets) && IsStorableKey(Routine.GetKey(act))
    ensures var q := AddPracticeSet(p, act, score, dateTime);
            && Load(Some(Save(q, fmt)), fmt) == Success(q)
            && Load(Some(TextIO.UniversalNewlines(Save(q, fmt))), fmt) == Success(q)
  {
    AddKeepsKeysStorable(p, act, score, dateTime);
    RoundTrip(AddPracticeSet(p, act, score, dateTime), fmt);
  }

  /** Loading what `save` wrote, followed by `extra`: the store comes back unchanged when
      `extra` is only newlines, and otherwise the load fails on the remaining data. */
  lemma LoadSavedWithTrailingData<T(!new)>(p: Practices<T>, extra: string, fmt: DateTimeFormat<T>)
    requires RoundTrips(fmt) && AllKeysStorable(p.practiceSets)
    ensures Load(Some(Save(p, fmt) + extra), fmt)
            == if forall i :: 0 <= i < |extra| ==> extra[i] == '\n' then Success(p)
               else Failure(DataRemaining(StripNewlines(extra)))
  {
    var n := |p.practiceSets|;
    var records := SavePracticeSets(p.practiceSets, fmt);
    SavedThenMore(p, extra, fmt);
    SavedSetsThenRest(p.practiceSets, extra, fmt);
    LoadCountLine(n, records + extra, fmt);
    FinishAfterRecords(p.practiceSets, extra);
  }

  /** Reading back all the saved practice sets leaves exactly what followed them. */
  lemma SavedSetsThenRest<T(!new)>(sets: seq<PracticeSet<T>>, rest: string, fmt: DateTimeFormat<T>)
    requires RoundTrips(fmt) && AllKeysStorable(sets)
    ensures LoadPracticeSets(SavePracticeSets(sets, fmt) + rest, |sets|, fmt) == Success((sets, rest))
  {
    var none := LoadPracticeSets(rest, 0, fmt);
    assert none == Success(([], rest));
    assert Prepend(sets, none) == Success((sets, rest)) by {
      assert sets + [] == sets;
    }
    var n: nat := |sets| + 0;
    PracticeSetsRoundTrip(sets, rest, 0, fmt);
    assert LoadPracticeSets(SavePracticeSets(sets, fmt) + rest, n, fmt) == Prepend(sets, none);
  }

  /** The saved text followed by more: the count line, then the practice sets and the rest. */
  lemma SavedThenMore<T>(p: Practices<T>, extra: string, fmt: DateTimeFormat<T>)
    ensures Save(p, fmt) + extra
            == IntToString(|p.practiceSets|) + "\n" + (SavePracticeSets(p.practiceSets, fmt) + extra)
  {
  }

  /** What is left after the last practice set decides the load: only newlines, or the
      remaining data, newlines stripped, in the error. */
  lemma FinishAfterRecords<T>(sets: seq<PracticeSet<T>>, rest: string)
    ensures FinishLoad(Success((sets, rest)))
            == if forall i :: 0 <= i < |rest| ==> rest[i] == '\n' then Success(Practices(sets))
               else Failure(DataRemaining(StripNewlines(rest)))
  {
    StripNewlinesEmpty(rest);
  }

  /** Loading what `save` wrote gives back the same practice sets, in the same order, provided
      every key is a non-empty single line. */
  lemma RoundTrip<T(!new)>(p: Practices<T>, fmt: DateTimeFormat<T>)
    requires RoundTrips(fmt) && AllKeysStorable(p.practiceSets)
    ensures Load(Some(Save(p, fmt)), fmt) == Success(p)
    ensures Load(Some(TextIO.UniversalNewlines(Save(p, fmt))), fmt) == Success(p)
  {
    LoadSavedWithTrailingData(p, "", fmt);
    assert Save(p, fmt) + "" == Save(p, fmt);
    SavedFileReadsBack(p, fmt);
  }

  /** The saved practice sets hold no '\r' when no key does. */
  lemma {:induction false} SavedSetsAvoidCarriageReturn<T(!new)>(sets: seq<PracticeSet<T>>, fmt: DateTimeFormat<T>)
    requires RoundTrips(fmt) && forall i :: 0 <= i < |sets| ==> '\r' !in sets[i].activityKey
    ensures '\r' !in SavePracticeSets(sets, fmt)
    decreases |sets|
  {
    if sets != [] {
      SavedSetsAvoidCarriageReturn(sets[1..], fmt);
      IntToStringIsOneLine(sets[0].score);
      assert '\r' !in fmt.isoFormat(sets[0].dateTime);
      assert SavePracticeSets(sets, fmt) == SavePracticeSet(sets[0], fmt) + SavePracticeSets(sets[1..], fmt);
    }
  }

  /** The file `save` writes reads back, in universal-newlines mode, as the text written,
      provided no key holds a '\r'. */
  lemma SavedFileReadsBack<T(!new)>(p: Practices<T>, fmt: DateTimeFormat<T>)
    requires RoundTrips(fmt) && forall i :: 0 <= i < |p.practiceSets| ==> '\r' !in p.practiceSets[i].activityKey
    ensures '\r' !in Save(p, fmt)
    ensures TextIO.UniversalNewlines(Save(p, fmt)) == Save(p, fmt)
  {
    SavedSetsAvoidCarriageReturn(p.practiceSets, fmt);
    IntToStringIsOneLine(|p.practiceSets|);
    TextIO.UniversalNewlinesOfPlain(Save(p, fmt));
  }

  /** The practices file as read: what `save` wrote, followed by `extra`, both read in
      universal-newlines mode. The store comes back when `extra` reads as newlines only, and
      otherwise the load fails on the remaining data as read. */
  lemma LoadSavedFileWithTrailingData<T(!new)>(p: Practices<T>, extra: string, fmt: DateTimeFormat<T>)
    requires RoundTrips(fmt) && AllKeysStorable(p.practiceSets)
    ensures var read := TextIO.UniversalNewlines(extra);
            Load(Some(TextIO.UniversalNewlines(Save(p, fmt) + extra)), fmt)
            == if forall i :: 0 <= i < |read| ==> read[i] == '\n' then Success(p)
               else Failure(DataRemaining(StripNewlines(read)))
  {
    var text := Save(p, fmt);
    SavedFileReadsBack(p, fmt);
    assert text == [] || text[|text| - 1] in text;
    TextIO.UniversalNewlinesAppend(text, extra);
    LoadSavedWithTrailingData(p, TextIO.UniversalNewlines(extra), fmt);
  }

  /** A key holding '\r' is not carried by the file: universal-newlines mode reads "a\r\n"
      as "a\n", so the practice set comes back with key "a". */
  lemma CarriageReturnKeyReadsBackChanged<T(!new)>(score: int, t: T, fmt: DateTimeFormat<T>)
    requires RoundTrips(fmt)
    ensures var written := Practices([PracticeSet("a\r", score, t)]);
            Load(Some(TextIO.UniversalNewlines(Save(written, fmt))), fmt)
            == Success(Practices([PracticeSet("a", score, t)]))
  {
    var written, reloaded := Practices([PracticeSet("a\r", score, t)]), Practices([PracticeSet("a", score, t)]);
    var head := IntToString(1) + "\na";
    var tail := IntToString(score) + "\n" + fmt.isoFormat(t) + "\n";
    SavedAsHeadAndTail(written.practiceSets[0], head, "\r\n", tail, fmt);
    SavedAsHeadAndTail(reloaded.practiceSets[0], head, "\n", tail, fmt);
    IntToStringIsOneLine(1);
    IntToStringIsOneLine(score);
    assert '\r' !in fmt.isoFormat(t);
    TextIO.UniversalNewlinesAppend(head, "\r\n" + tail);
    TextIO.UniversalNewlinesOfPlain(head);
    TextIO.UniversalNewlinesCrLf(tail);
    TextIO.UniversalNewlinesOfPlain(tail);
    RoundTrip(reloaded, fmt);
  }

  /** The saved text of a store of one practice set whose key is "a" followed by `ending`. */
  lemma SavedAsHeadAndTail<T>(ps: PracticeSet<T>, head: string, ending: string, tail: string, fmt: DateTimeFormat<T>)
    requires ps.activityKey + "\n" == "a" + ending
    requires head == IntToString(1) + "\na" && tail == IntToString(ps.score) + "\n" + fmt.isoFormat(ps.dateTime) + "\n"
    ensures Save(Practices([ps]), fmt) == head + (ending + tail)
  {
    var record := SavePracticeSet(ps, fmt);
    assert [ps][1..] == [] && Saver(fmt)(ps) == record;
    assert SavePracticeSets([ps], fmt) == record + SaveEachThen([], "", Saver(fmt));
    assert record == "a" + ending + tail;
    assert Save(Practices([ps]), fmt) == IntToString(1) + "\n" + (record + "");
  }

  /** Saved practice sets followed by data on which reading a practice set fails: reading
      more practice sets than were saved fails in the same way. */
  lemma SavedThenFailure<T(!new)>(sets: seq<PracticeSet<T>>, rest: string, n: nat, e: PracticeSetLoadingError, fmt: DateTimeFormat<T>)
    requires RoundTrips(fmt) && AllKeysStorable(sets) && n > |sets| && LoadPracticeSet(rest, fmt) == Failure(e)
    ensures LoadPracticeSets(SaveEachThen(sets, rest, Saver(fmt)), n, fmt) == Failure(e)
  {
    assert Loader(fmt)(rest) == Failure(e);
    AllReadBack(sets, fmt);
    EachThenFailure(sets, rest, n, e, Saver(fmt), Loader(fmt));
  }

  /** A practice set that fails to load after the count line fails the whole load. */
  lemma SetsFailLoad<T>(n: nat, body: string, e: PracticeSetLoadingError, fmt: DateTimeFormat<T>)
    requires LoadPracticeSets(body, n, fmt) == Failure(e)
    ensures Load(Some(IntToString(n) + "\n" + body), fmt) == Failure(PracticeSetLoadFailed(e))
  {
    LoadCountLine(n, body, fmt);
  }

  /** Reading a practice set at the end of the file finds no key. */
  lemma NothingLeftToRead<T>(k: nat, fmt: DateTimeFormat<T>)
    requires k > 0
    ensures LoadPracticeSet("", fmt) == Failure(NoActivityKey)
    ensures LoadPracticeSets("", k, fmt) == Failure(NoActivityKey)
  {
    assert TextIO.ReadLine("") == ("", "");
    assert LoadPracticeSet("", fmt) == Failure(NoActivityKey);
  }

  /** A count line promising more practice sets than follow makes the load fail: the first
      missing practice set reads an empty key. */
  lemma MissingPracticeSets<T(!new)>(sets: seq<PracticeSet<T>>, n: int, fmt: DateTimeFormat<T>)
    requires RoundTrips(fmt) && AllKeysStorable(sets) && n > |sets|
    ensures Load(Some(IntToString(n) + "\n" + SavePracticeSets(sets, fmt)), fmt)
            == Failure(PracticeSetLoadFailed(NoActivityKey))
    ensures Load(Some(TextIO.UniversalNewlines(IntToString(n) + "\n" + SavePracticeSets(sets, fmt))), fmt)
            == Failure(PracticeSetLoadFailed(NoActivityKey))
  {
    SavedSetsAvoidCarriageReturn(sets, fmt);
    IntToStringIsOneLine(n);
    TextIO.UniversalNewlinesOfPlain(IntToString(n) + "\n" + SavePracticeSets(sets, fmt));
    NothingLeftToRead(n - |sets|, fmt);
    SavedThenFailure(sets, "", n, NoActivityKey, fmt);
    SetsFailLoad(n, SavePracticeSets(sets, fmt), NoActivityKey, fmt);
  }

  /** A negative count reads no practice set: it behaves as a count of zero. */
  lemma NegativeCountReadsNothing<T>(n: int, body: string, fmt: DateTimeFormat<T>)
    requires n < 0
    ensures Load(Some(IntToString(n) + "\n" + body), fmt) == Load(Some(IntToString(0) + "\n" + body), fmt)
  {
    LoadCountLine(n, body, fmt);
    LoadCountLine(0, body, fmt);
  }

  /** An empty line where a key is expected is a missing key. */
  lemma EmptyKeyLineFails<T>(tail: string, fmt: DateTimeFormat<T>)
    ensures LoadPracticeSet("\n" + tail, fmt) == Failure(NoActivityKey)
  {
    assert "\n" + tail == "" + "\n" + tail;
    TextIO.ReadTerminatedLine("", tail);
    RStripTerminated("");
  }

  /** A saved practice set whose key is empty reads back as a missing key. */
  lemma SavedEmptyKeyFails<T>(ps: PracticeSet<T>, tail: string, fmt: DateTimeFormat<T>)
    requires ps.activityKey == []
    ensures LoadPracticeSet(SavePracticeSet(ps, fmt) + tail, fmt) == Failure(NoActivityKey)
  {
    var afterKey := IntToString(ps.score) + "\n" + fmt.isoFormat(ps.dateTime) + "\n" + tail;
    assert SavePracticeSet(ps, fmt) + tail == "" + "\n" + afterKey;
    TextIO.ReadTerminatedLine("", afterKey);
    RStripTerminated("");
  }

  /** The saved lines split at the practice set at `j`. */
  lemma SavedSplitAt<T>(sets: seq<PracticeSet<T>>, j: nat, fmt: DateTimeFormat<T>)
    requires j < |sets|
    ensures SavePracticeSets(sets, fmt)
            == SaveEachThen(sets[..j], SavePracticeSet(sets[j], fmt) + SavePracticeSets(sets[j + 1..], fmt), Saver(fmt))
  {
    assert sets == sets[..j] + sets[j..];
    SaveEachThenAppend(sets[..j], sets[j..], "", Saver(fmt));
    assert sets[j..][0] == sets[j] && sets[j..][1..] == sets[j + 1..];
  }

  /** Reading back the saved practice sets stops at the first one with an empty key. */
  lemma SavedEmptyKeyStopsReading<T(!new)>(sets: seq<PracticeSet<T>>, j: nat, fmt: DateTimeFormat<T>)
    requires RoundTrips(fmt) && j < |sets| && AllKeysStorable(sets[..j]) && sets[j].activityKey == []
    ensures LoadPracticeSets(SavePracticeSets(sets, fmt), |sets|, fmt) == Failure(NoActivityKey)
  {
    SavedSplitAt(sets, j, fmt);
    SavedEmptyKeyFails(sets[j], SavePracticeSets(sets[j + 1..], fmt), fmt);
    SavedThenFailure(sets[..j], SavePracticeSet(sets[j], fmt) + SavePracticeSets(sets[j + 1..], fmt), |sets|, NoActivityKey, fmt);
  }

  /** `save` writes a practice set with an empty key, but loading the file fails on it. */
  lemma EmptyKeyNotReloadable<T(!new)>(sets: seq<PracticeSet<T>>, j: nat, fmt: DateTimeFormat<T>)
    requires RoundTrips(fmt) && j < |sets| && AllKeysStorable(sets[..j]) && sets[j].activityKey == []
    ensures Load(Some(Save(Practices(sets), fmt)), fmt) == Failure(PracticeSetLoadFailed(NoActivityKey))
    ensures Load(Some(TextIO.UniversalNewlines(Save(Practices(sets), fmt))), fmt) == Failure(PracticeSetLoadFailed(NoActivityKey))
  {
    SavedEmptyKeyStopsReading(sets, j, fmt);
    SetsFailLoad(|sets|, SavePracticeSets(sets, fmt), NoActivityKey, fmt);
    EmptyKeyFileNotReloadable(sets, j, fmt);
  }

  /** The saved practice sets split at the empty key of the one at `j`: the practice sets
      before it, and what follows its key line. */
  lemma SavedSetsAroundEmptyKey<T>(sets: seq<PracticeSet<T>>, j: nat, fmt: DateTimeFormat<T>)
    requires j < |sets| && sets[j].activityKey == []
    ensures SavePracticeSets(sets, fmt)
            == SavePracticeSets(sets[..j], fmt)
               + ("\n" + (IntToString(sets[j].score) + "\n" + fmt.isoFormat(sets[j].dateTime) + "\n" + SavePracticeSets(sets[j + 1..], fmt)))
  {
    var ps, later := sets[j], SavePracticeSets(sets[j + 1..], fmt);
    var fields := IntToString(ps.score) + "\n" + fmt.isoFormat(ps.dateTime) + "\n";
    assert SavePracticeSet(ps, fmt) == "\n" + fields;
    var saved := SavePracticeSet(ps, fmt) + later;
    assert saved == "\n" + (fields + later) by {
      TextIO.AppendAfterHead("\n", fields, later);
    }
    SavedSplitAt(sets, j, fmt);
    SaveEachThenIsConcat(sets[..j], saved, Saver(fmt));
  }

  /** Text free of '\r' followed by a line break reads back as written, and what follows the
      break is read on its own. */
  lemma PlainThenLineBreak(before: string, after: string)
    requires before != [] && '\r' !in before
    ensures TextIO.UniversalNewlines(before + ("\n" + after)) == before + ("\n" + TextIO.UniversalNewlines(after))
  {
    TextIO.UniversalNewlinesOfPlain(before);
    assert before[|before| - 1] in before;
    TextIO.UniversalNewlinesAppend(before, "\n" + after);
    TextIO.UniversalNewlinesOther('\n', after);
  }

  /** How the file with an empty key at `j` reads in universal-newlines mode: as written up to
      that key's line, and the rest read on its own. */
  lemma ReadAroundEmptyKey<T(!new)>(sets: seq<PracticeSet<T>>, j: nat, fmt: DateTimeFormat<T>)
    requires RoundTrips(fmt) && j < |sets| && AllKeysStorable(sets[..j]) && sets[j].activityKey == []
    ensures var after := IntToString(sets[j].score) + "\n" + fmt.isoFormat(sets[j].dateTime) + "\n" + SavePracticeSets(sets[j + 1..], fmt);
            TextIO.UniversalNewlines(Save(Practices(sets), fmt))
            == IntToString(|sets|) + "\n" + (SavePracticeSets(sets[..j], fmt) + ("\n" + TextIO.UniversalNewlines(after)))
  {
    var count, records := IntToString(|sets|), SavePracticeSets(sets[..j], fmt);
    var after := IntToString(sets[j].score) + "\n" + fmt.isoFormat(sets[j].dateTime) + "\n" + SavePracticeSets(sets[j + 1..], fmt);
    SavedSetsAroundEmptyKey(sets, j, fmt);
    SavedSetsAvoidCarriageReturn(sets[..j], fmt);
    IntToStringIsOneLine(|sets|);
    CountAndRecordsThenLineBreak(Save(Practices(sets), fmt), count, records, after);
  }

  /** A count line and records free of '\r', then a line break: read as written up to the
      break, and what follows read on its own. */
  lemma CountAndRecordsThenLineBreak(text: string, count: string, records: string, after: string)
    requires text == count + "\n" + (records + ("\n" + after))
    requires '\r' !in count && '\r' !in records
    ensures TextIO.UniversalNewlines(text) == count + "\n" + (records + ("\n" + TextIO.UniversalNewlines(after)))
  {
    var head := count + "\n" + records;
    assert text == head + ("\n" + after);
    PlainThenLineBreak(head, after);
  }

  /** Read in universal-newlines mode, the file still fails on the empty key: the text before
      it reads back as written, whatever the later keys hold. */
  lemma EmptyKeyFileNotReloadable<T(!new)>(sets: seq<PracticeSet<T>>, j: nat, fmt: DateTimeFormat<T>)
    requires RoundTrips(fmt) && j < |sets| && AllKeysStorable(sets[..j]) && sets[j].activityKey == []
    ensures Load(Some(TextIO.UniversalNewlines(Save(Practices(sets), fmt))), fmt) == Failure(PracticeSetLoadFailed(NoActivityKey))
  {
    var after := IntToString(sets[j].score) + "\n" + fmt.isoFormat(sets[j].dateTime) + "\n" + SavePracticeSets(sets[j + 1..], fmt);
    var rest := "\n" + TextIO.UniversalNewlines(after);
    ReadAroundEmptyKey(sets, j, fmt);
    EmptyKeyLineFails(TextIO.UniversalNewlines(after), fmt);
    RecordsThenFailureFailLoad(sets[..j], rest, |sets|, fmt);
  }

  /** A file whose count is `n`, holding fewer saved practice sets followed by data on which
      reading a practice set fails with a missing key, fails to load. */
  lemma RecordsThenFailureFailLoad<T(!new)>(sets: seq<PracticeSet<T>>, rest: string, n: nat, fmt: DateTimeFormat<T>)
    requires RoundTrips(fmt) && AllKeysStorable(sets) && n > |sets| && LoadPracticeSet(rest, fmt) == Failure(NoActivityKey)
    ensures Load(Some(IntToString(n) + "\n" + (SavePracticeSets(sets, fmt) + rest)), fmt) == Failure(PracticeSetLoadFailed(NoActivityKey))
  {
    SavedThenFailure(sets, rest, n, NoActivityKey, fmt);
    SaveEachThenIsConcat(sets, rest, Saver(fmt));
    SetsFailLoad(n, SavePracticeSets(sets, fmt) + rest, NoActivityKey, fmt);
  }
}

=== FILE: routine.dfy ===
/**
 The practice routine: the activities a user can practise, read from an activities file that
 holds one description per line.
 */
module Routine {
  import opened Wrappers
  import opened PyText
  import TextIO
  import StringOrder

  /** One practice task. It is fully represented by its description. */
  datatype Activity = Activity(description: string)

  function GetDescription(a: Activity): string {
    a.description
  }

  /** The key that links practice records back to an activity: for now, the description. */
  function GetKey(a: Activity): string {
    GetDescription(a)
  }

  /** All the activities of the routine, in file order. */
  datatype Activities = Activities(activities: seq<Activity>)

  datatype ActivitiesFileError = NoActivityFile | NoActivitiesFound

  function ActivitiesFileErrorMessage(e: ActivitiesFileError): string {
    match e
    case NoActivityFile => "No Activity file found, please create an activity file. "
    case NoActivitiesFound => "No activities found in activity file. Please add activities."
  }

  /** One activity per line read, each description the line with surrounding whitespace
      stripped. */
  function ActivitiesOf(lines: seq<string>): (acts: seq<Activity>)
    ensures |acts| == |lines|
    ensures forall i :: 0 <= i < |lines| ==> acts[i].description == Strip(lines[i])
  {
    seq(|lines|, i requires 0 <= i < |lines| => Activity(Strip(lines[i])))
  }

  /** `Activities(activity_file)`, where `contents` is None when the file does not exist.
      Blank lines become activities with an empty description, as the code is written. */
  function LoadActivities(contents: Option<string>): (r: Result<Activities, ActivitiesFileError>)
    ensures contents.None? ==> r == Failure(NoActivityFile)
    ensures contents.Some? ==> (r.Failure? <==> contents.value == [])
    ensures contents.Some? && r.Failure? ==> r.error == NoActivitiesFound
    ensures r.Success? ==>
              && contents.Some?
              && |r.value.activities| > 0
              && var lines := TextIO.ReadLines(contents.value);
                 && |r.value.activities| == |lines|
                 && forall i :: 0 <= i < |lines| ==>
                      GetKey(r.value.activities[i]) == GetDescription(r.value.activities[i]) == Strip(lines[i])
  {
    match contents
    case None => Failure(NoActivityFile)
    case Some(text) =>
      TextIO.ReadLinesEmpty(text);
      var acts := ActivitiesOf(TextIO.ReadLines(text));
      if acts == [] then Failure(NoActivitiesFound) else Success(Activities(acts))
  }

  /** A single line of text with no whitespace at either end. */
  predicate IsTrimmedLine(d: string)
  {
    '\n' !in d && (d != [] ==> !IsSpace(d[0]) && !IsSpace(d[|d| - 1]))
  }

  /** A line as `readlines()` returns it, stripped, is a single line with no surrounding
      whitespace. */
  lemma StrippedLineTrimmed(line: string)
    requires TextIO.IsLine(line)
    ensures IsTrimmedLine(Strip(line))
  {
    var d := Strip(line);
    var k := StripSpec(line);
    forall j | 0 <= j < |d|
      ensures d[j] != '\n'
    {
      assert d[j] == line[k + j];
    }
  }

  /** Every line as `readlines()` returns it, stripped, is a single line with no surrounding
      whitespace. */
  lemma TrimmedDescriptionsOf(lines: seq<string>)
    requires TextIO.AreLines(lines)
    ensures forall a :: a in ActivitiesOf(lines) ==> IsTrimmedLine(GetDescription(a))
  {
    var acts := ActivitiesOf(lines);
    forall a | a in acts
      ensures IsTrimmedLine(GetDescription(a))
    {
      var i :| 0 <= i < |acts| && acts[i] == a;
      assert TextIO.IsLine(lines[i]);
      assert GetDescription(a) == Strip(lines[i]);
      StrippedLineTrimmed(lines[i]);
    }
  }

  /** Every description loaded is a single line with no surrounding whitespace. */
  lemma LoadedDescriptionsAreTrimmed(text: string)
    requires LoadActivities(Some(text)).Success?
    ensures forall a :: a in LoadActivities(Some(text)).value.activities ==> IsTrimmedLine(GetDescription(a))
  {
    LoadActivitiesOfText(text);
    TrimmedDescriptionsOf(TextIO.ReadLines(text));
  }

  /** Stripping a line adds no character to it. */
  lemma StrippedLineAvoids(line: string, c: char)
    requires c !in line
    ensures c !in Strip(line)
  {
    var d := Strip(line);
    var k := StripSpec(line);
    forall j | 0 <= j < |d|
      ensures d[j] != c
    {
      assert d[j] == line[k + j];
    }
  }

  /** A character the file's text does not hold is in no key loaded from it. Read in
      universal-newlines mode, the text holds no '\r', so no key does. */
  lemma LoadedKeysAvoid(text: string, c: char)
    requires c !in text && LoadActivities(Some(text)).Success?
    ensures forall a :: a in LoadActivities(Some(text)).value.activities ==> c !in GetKey(a)
  {
    var lines := TextIO.ReadLines(text);
    LoadActivitiesOfText(text);
    TextIO.LinesAvoid(text, c);
    var acts := ActivitiesOf(lines);
    forall a | a in acts
      ensures c !in GetKey(a)
    {
      var i :| 0 <= i < |acts| && acts[i] == a;
      StrippedLineAvoids(lines[i], c);
    }
  }

  function Descriptions(acts: seq<Activity>): (ds: seq<string>)
    ensures |ds| == |acts|
  {
    seq(|acts|, i requires 0 <= i < |acts| => GetDescription(acts[i]))
  }

  /** `get_activity_descriptions()`: the activities sorted by key, as their descriptions. Since
      the key is the description, sorting the keys gives the same list. */
  function GetActivityDescriptions(acts: Activities): (r: seq<string>)
    ensures StringOrder.Sorted(r)
    ensures multiset(r) == multiset(Descriptions(acts.activities))
  {
    var keys := seq(|acts.activities|, i requires 0 <= i < |acts.activities| => GetKey(acts.activities[i]));
    assert keys == Descriptions(acts.activities);
    StringOrder.Sort(keys)
  }

  /** `get_num_activities()`: as many as `get_activity_descriptions()` lists. */
  function GetNumActivities(acts: Activities): (n: nat)
    ensures n == |GetActivityDescriptions(acts)|
  {
    |acts.activities|
  }

  /** An ascending list of descriptions comes back as it is. */
  lemma SortedDescriptionsKept(acts: Activities)
    requires StringOrder.Sorted(Descriptions(acts.activities))
    ensures GetActivityDescriptions(acts) == Descriptions(acts.activities)
  {
    StringOrder.SortedPermutationUnique(GetActivityDescriptions(acts), Descriptions(acts.activities));
  }

  /** `get_random_activity()`: some activity of the routine. The distribution of
      `random.choice` is not modelled. The list is never empty once loaded, as
      `LoadActivities` ensures. */
  method GetRandomActivity(acts: Activities) returns (a: Activity)
    requires |acts.activities| > 0
    ensures a in acts.activities
  {
    assert acts.activities[0] in acts.activities;
    a :| a in acts.activities;
  }

  // ---------------------------------------------------------------------------------------
  // Blank lines
  // ---------------------------------------------------------------------------------------

  /** The activities whose description is not empty, in their order. */
  function DropBlank(acts: seq<Activity>): seq<Activity> {
    if acts == [] then []
    else if GetDescription(acts[0]) == [] then DropBlank(acts[1..])
    else [acts[0]] + DropBlank(acts[1..])
  }

  /** An activity is kept exactly when it is listed and its description is non-empty. */
  lemma {:induction false} DropBlankMembers(acts: seq<Activity>)
    ensures forall a :: a in DropBlank(acts) <==> a in acts && GetDescription(a) != []
  {
    if acts != [] {
      DropBlankMembers(acts[1..]);
      assert acts == [acts[0]] + acts[1..];
    }
  }

  /** Each activity is kept as many times as it occurs, if its description is non-empty, and
      dropped entirely otherwise. */
  lemma {:induction false} DropBlankCounts(acts: seq<Activity>)
    ensures forall a :: multiset(DropBlank(acts))[a] == if GetDescription(a) != [] then multiset(acts)[a] else 0
  {
    if acts != [] {
      DropBlankCounts(acts[1..]);
      assert acts == [acts[0]] + acts[1..];
      assert multiset(acts) == multiset{acts[0]} + multiset(acts[1..]);
    }
  }

  /** The first activity is kept or dropped on its own, before the rest. */
  lemma DropBlankCons(a: Activity, rest: seq<Activity>)
    ensures DropBlank([a] + rest) == (if GetDescription(a) == [] then [] else [a]) + DropBlank(rest)
  {
    assert ([a] + rest)[1..] == rest;
  }

  /** Dropping blanks keeps the order: it works on each part of a list separately. */
  lemma {:induction false} DropBlankAppend(x: seq<Activity>, y: seq<Activity>)
    ensures DropBlank(x + y) == DropBlank(x) + DropBlank(y)
  {
    if x == [] {
      assert x + y == y;
    } else {
      var a, tail := x[0], x[1..];
      assert x == [a] + tail;
      assert x + y == [a] + (tail + y);
      DropBlankCons(a, tail);
      DropBlankCons(a, tail + y);
      DropBlankAppend(tail, y);
    }
  }

  /** Nothing is left exactly when every description is empty. */
  lemma DropBlankEmpty(acts: seq<Activity>)
    ensures DropBlank(acts) == [] <==> forall i :: 0 <= i < |acts| ==> GetDescription(acts[i]) == []
  {
    DropBlankMembers(acts);
    if DropBlank(acts) == [] {
      forall i | 0 <= i < |acts| ensures GetDescription(acts[i]) == [] {
        assert acts[i] in acts;
      }
    } else {
      assert DropBlank(acts)[0] in DropBlank(acts);
    }
  }

  /** No line is kept exactly when every line is blank. */
  lemma NoneKeptIffAllBlank(lines: seq<string>)
    ensures DropBlank(ActivitiesOf(lines)) == [] <==> forall i :: 0 <= i < |lines| ==> Strip(lines[i]) == []
  {
    var all := ActivitiesOf(lines);
    DropBlankEmpty(all);
    assert forall i :: 0 <= i < |all| ==> GetDescription(all[i]) == Strip(lines[i]);
  }

  /** The activities of the non-blank lines among lines `readlines()` returned: there are none
      exactly when every line is blank, and each is a single non-empty line. */
  lemma KeptActivitiesOfLines(lines: seq<string>)
    requires TextIO.AreLines(lines)
    ensures var acts := DropBlank(ActivitiesOf(lines));
            && (acts == [] <==> forall i :: 0 <= i < |lines| ==> Strip(lines[i]) == [])
            && forall a :: a in acts ==> GetKey(a) != [] && '\n' !in GetKey(a) && a in ActivitiesOf(lines)
  {
    NoneKeptIffAllBlank(lines);
    TrimmedDescriptionsOf(lines);
    DropBlankMembers(ActivitiesOf(lines));
  }

  /** The activities of the non-blank lines of a file: there are none exactly when every line
      is blank, and each is a single non-empty line that the plain loader yields too. */
  lemma KeptActivities(text: string)
    ensures var lines := TextIO.ReadLines(text);
            var acts := DropBlank(ActivitiesOf(lines));
            && (acts == [] <==> forall i :: 0 <= i < |lines| ==> Strip(lines[i]) == [])
            && (acts != [] ==> LoadActivities(Some(text)).Success?)
            && (acts != [] ==> acts == DropBlank(LoadActivities(Some(text)).value.activities))
            && forall a :: a in acts ==>
                 && GetKey(a) != []
                 && '\n' !in GetKey(a)
                 && a in LoadActivities(Some(text)).value.activities
  {
    var lines := TextIO.ReadLines(text);
    var all := ActivitiesOf(lines);
    KeptActivitiesOfLines(lines);
    if DropBlank(all) != [] {
      assert DropBlank(all)[0] in all;
      LoadActivitiesOfText(text);
    }
  }

  /** The loader the tests describe: blank lines are discarded, and a file with no other line
      is rejected. Every description it yields is non-empty and holds no newline, so every
      key it hands out can be saved and loaded back. */
  function LoadActivitiesSkippingBlanks(contents: Option<string>): (r: Result<Activities, ActivitiesFileError>)
    ensures contents.None? ==> r == Failure(NoActivityFile)
    ensures contents.Some? ==>
              var lines := TextIO.ReadLines(contents.value);
              (r.Failure? <==> forall i :: 0 <= i < |lines| ==> Strip(lines[i]) == [])
    ensures contents.Some? && r.Failure? ==> r.error == NoActivitiesFound
    ensures r.Success? ==>
              && |r.value.activities| > 0
              && r.value.activities == DropBlank(LoadActivities(contents).value.activities)
              && forall a :: a in r.value.activities ==>
                   && GetKey(a) != []
                   && '\n' !in GetKey(a)
                   && a in LoadActivities(contents).value.activities
  {
    match contents
    case None => Failure(NoActivityFile)
    case Some(text) =>
      KeptActivities(text);
      var acts := DropBlank(ActivitiesOf(TextIO.ReadLines(text)));
      if acts == [] then Failure(NoActivitiesFound) else Success(Activities(acts))
  }

  /** The blank-skipping loader on a file of known lines. */
  lemma LoadActivitiesSkippingBlanksOfLines(text: string, lines: seq<string>, all: seq<Activity>)
    requires TextIO.ReadLines(text) == lines && ActivitiesOf(lines) == all
    ensures var acts := DropBlank(all);
            LoadActivitiesSkippingBlanks(Some(text))
              == if acts == [] then Failure(NoActivitiesFound) else Success(Activities(acts))
  {
  }

  /** The loader on a file with at least one line: one activity per line. */
  lemma LoadActivitiesOfText(text: string)
    requires TextIO.ReadLines(text) != []
    ensures LoadActivities(Some(text)) == Success(Activities(ActivitiesOf(TextIO.ReadLines(text))))
  {
    TextIO.ReadLinesEmpty(text);
  }

  /** The loader on a file of known lines. */
  lemma LoadActivitiesOfLines(text: string, lines: seq<string>, acts: seq<Activity>)
    requires TextIO.ReadLines(text) == lines && lines != []
    requires |acts| == |lines| && forall i :: 0 <= i < |lines| ==> acts[i] == Activity(Strip(lines[i]))
    ensures LoadActivities(Some(text)) == Success(Activities(acts))
  {
    assert ActivitiesOf(lines) == acts;
  }

}

=== FILE: routine_examples.dfy ===
/**
 The activities-file cases of the routine tests that involve blank lines, stated for every file
 of their shape: what the loader as written does with them, and what the blank-skipping loader
 does instead.
 */
module RoutineExamples {
  import opened Wrappers
  import PyText
  import TextIO
  import opened Routine

  /** A file of `n` empty lines. */
  function BlankLines(n: nat): (s: string)
    ensures |s| == n
  {
    seq(n, _ => '\n')
  }

  lemma {:induction false} ReadLinesOfBlankLines(n: nat)
    ensures TextIO.ReadLines(BlankLines(n)) == seq(n, _ => "\n")
  {
    if n > 0 {
      assert BlankLines(n) == "" + "\n" + BlankLines(n - 1);
      TextIO.ReadLinesOfTerminated("", BlankLines(n - 1));
      ReadLinesOfBlankLines(n - 1);
    }
  }

  lemma StripNewline()
    ensures PyText.Strip("\n") == ""
  {
    PyText.TrimRightAppend("", '\n', PyText.IsSpace);
    assert "" + ['\n'] == "\n";
  }

  /** Each blank line gives an activity with an empty description. */
  lemma ActivitiesOfBlankLines(n: nat)
    ensures ActivitiesOf(seq(n, _ => "\n")) == seq(n, _ => Activity(""))
  {
    StripNewline();
  }

  /** A line whose only newline is its last character, stripped, loses that newline. */
  lemma StripTerminatedLine(a: string)
    requires a != [] && !PyText.IsSpace(a[0]) && !PyText.IsSpace(a[|a| - 1])
    ensures PyText.Strip(a + "\n") == a
  {
    PyText.TrimRightAppend(a, '\n', PyText.IsSpace);
    PyText.TrimFixed(a, PyText.IsSpace);
  }

  /** As the loader is written, blank lines are not dropped: a file of `n` empty lines (two in
      the test) loads as `n` activities with an empty description, where it should be
      rejected. */
  lemma BlankLinesBecomeActivities(n: nat)
    requires n > 0
    ensures LoadActivities(Some(BlankLines(n))) == Success(Activities(seq(n, _ => Activity(""))))
  {
    ReadLinesOfBlankLines(n);
    StripNewline();
    LoadActivitiesOfLines(BlankLines(n), seq(n, _ => "\n"), seq(n, _ => Activity("")));
  }

  /** A blank line followed by the line `a`, read line by line. */
  lemma ReadLinesOfBlankThenLine(a: string)
    requires '\n' !in a
    ensures TextIO.ReadLines("\n" + a + "\n") == ["\n", a + "\n"]
  {
    TextIO.ReadLinesOfTerminated(a, "");
    TextIO.ReadLinesOfTerminated("", a + "\n");
    assert "" + "\n" + (a + "\n") == "\n" + a + "\n";
    assert a + "\n" + "" == a + "\n";
  }

  /** As the loader is written, a blank line before an activity adds an empty activity of its
      own (the test writes "\nactivity\n" and expects one activity). */
  lemma BlankLineBeforeActivityKept(a: string)
    requires '\n' !in a && a != [] && !PyText.IsSpace(a[0]) && !PyText.IsSpace(a[|a| - 1])
    ensures LoadActivities(Some("\n" + a + "\n")) == Success(Activities([Activity(""), Activity(a)]))
  {
    ReadLinesOfBlankThenLine(a);
    StripNewline();
    StripTerminatedLine(a);
    LoadTwoActivities("\n" + a + "\n", "\n", a + "\n");
  }

  /** A file read as two lines loads as the two stripped lines, in order. */
  lemma LoadTwoActivities(text: string, first: string, second: string)
    requires TextIO.ReadLines(text) == [first, second]
    ensures LoadActivities(Some(text))
            == Success(Activities([Activity(PyText.Strip(first)), Activity(PyText.Strip(second))]))
  {
    var acts := [Activity(PyText.Strip(first)), Activity(PyText.Strip(second))];
    assert ActivitiesOf([first, second]) == acts by {
      var got := ActivitiesOf([first, second]);
      assert |got| == 2 && got[0] == acts[0] && got[1] == acts[1];
    }
    LoadActivitiesOfText(text);
  }

  /** Activities with an empty description are all dropped. */
  lemma AllBlankDropped(n: nat)
    ensures DropBlank(seq(n, _ => Activity(""))) == []
  {
    DropBlankEmpty(seq(n, _ => Activity("")));
  }

  /** With blank lines discarded, a file of blank lines is rejected, as the tests expect. */
  lemma SkippingBlanksRejectsBlankFile(n: nat)
    ensures LoadActivitiesSkippingBlanks(Some(BlankLines(n))) == Failure(NoActivitiesFound)
  {
    var lines, all := seq(n, _ => "\n"), seq(n, _ => Activity(""));
    ReadLinesOfBlankLines(n);
    ActivitiesOfBlankLines(n);
    AllBlankDropped(n);
    LoadActivitiesSkippingBlanksOfLines(BlankLines(n), lines, all);
  }

  /** A blank activity before a non-blank one is dropped. */
  lemma DropBlankBeforeActivity(a: string)
    requires a != []
    ensures DropBlank([Activity(""), Activity(a)]) == [Activity(a)]
  {
    assert [Activity(""), Activity(a)][1..] == [Activity(a)] && [Activity(a)][1..] == [];
    assert DropBlank([Activity(a)]) == [Activity(a)] + DropBlank([]);
  }

  /** A file read as a blank line and then a line that strips to `a`: with blank lines
      discarded, `a` is its only activity. */
  lemma SkippingBlanksOfBlankThenLine(text: string, lines: seq<string>, a: string)
    requires TextIO.ReadLines(text) == lines && |lines| == 2
    requires PyText.Strip(lines[0]) == [] && PyText.Strip(lines[1]) == a && a != []
    ensures LoadActivitiesSkippingBlanks(Some(text)) == Success(Activities([Activity(a)]))
  {
    var all := [Activity(""), Activity(a)];
    assert ActivitiesOf(lines) == all by {
      var got := ActivitiesOf(lines);
      assert |got| == 2 && got[0] == all[0] && got[1] == all[1];
    }
    DropBlankBeforeActivity(a);
    LoadActivitiesSkippingBlanksOfLines(text, lines, all);
  }

  /** With blank lines discarded, a blank line before an activity is ignored, as the tests
      expect. */
  lemma SkippingBlanksIgnoresBlankLine(a: string)
    requires '\n' !in a && a != [] && !PyText.IsSpace(a[0]) && !PyText.IsSpace(a[|a| - 1])
    ensures LoadActivitiesSkippingBlanks(Some("\n" + a + "\n")) == Success(Activities([Activity(a)]))
  {
    var lines := ["\n", a + "\n"];
    ReadLinesOfBlankThenLine(a);
    StripNewline();
    StripTerminatedLine(a);
    assert lines[0] == "\n" && lines[1] == a + "\n";
    SkippingBlanksOfBlankThenLine("\n" + a + "\n", lines, a);
  }

  /** Two strings that agree up to a point are ordered by the first character where they
      differ. */
  lemma {:induction false} FirstDifferenceDecides(p: string, c: char, d: char, x: string, y: string)
    requires c < d
    ensures StringOrder.LessEq(p + [c] + x, p + [d] + y)
    ensures p + [c] + x != p + [d] + y
    decreases |p|
  {
    var a := p + [c] + x;
    var b := p + [d] + y;
    assert a[|p|] == c && b[|p|] == d;
    if p != [] {
      assert a[1..] == p[1..] + [c] + x;
      assert b[1..] == p[1..] + [d] + y;
      FirstDifferenceDecides(p[1..], c, d, x, y);
    }
  }

  /** The one ascending arrangement of two strings. */
  lemma SortedPairIsUnique(r: seq<string>, u: string, v: string)
    requires StringOrder.Sorted(r) && multiset(r) == multiset([u, v]) && StringOrder.LessEq(v, u)
    ensures r == [v, u]
  {
    assert multiset([u, v]) == multiset([v, u]);
    StringOrder.SortedPermutationUnique(r, [v, u]);
  }

  /** Two activities listed in descending order come out in ascending order. */
  lemma TwoDescriptionsSwapped(u: string, v: string)
    requires StringOrder.LessEq(v, u)
    ensures GetActivityDescriptions(Activities([Activity(u), Activity(v)])) == [v, u]
  {
    assert Descriptions([Activity(u), Activity(v)]) == [u, v];
    DescriptionsOfPairSorted(Activities([Activity(u), Activity(v)]), u, v);
  }

  /** Whatever list describes `u` and `v`, sorting lists them as `v`, `u` when `v` comes first. */
  lemma DescriptionsOfPairSorted(acts: Activities, u: string, v: string)
    requires Descriptions(acts.activities) == [u, v] && StringOrder.LessEq(v, u)
    ensures GetActivityDescriptions(acts) == [v, u]
  {
    SortedPairIsUnique(GetActivityDescriptions(acts), u, v);
  }

  /** Descriptions come out in code-point order whatever the file order: the test's
      "activity with Whitespace" precedes "activity_1" because ' ' precedes '_'. */
  lemma SpaceSortsBeforeUnderscore(p: string, x: string, y: string)
    ensures GetActivityDescriptions(Activities([Activity(p + "_" + y), Activity(p + " " + x)]))
              == [p + " " + x, p + "_" + y]
  {
    assert p + " " + x == p + [' '] + x && p + "_" + y == p + ['_'] + y;
    FirstDifferenceDecides(p, ' ', '_', x, y);
    TwoDescriptionsSwapped(p + "_" + y, p + " " + x);
  }
}

=== FILE: session.dfy ===
/**
 A practice session end to end: an activity drawn from the routine file is scored, added to
 the practice results, and the results are saved and later loaded again.
 */
module Session {
  import opened Wrappers
  import TextIO
  import Routine
  import RoutineExamples
  import opened Results

  /** As written, a routine file of blank lines yields activities with an empty key; once
      one of them is scored and the results are saved, the results file no longer loads. */
  lemma BlankActivityBreaksResults<T(!new)>(n: nat, p: Practices<T>, score: int, dateTime: T, fmt: DateTimeFormat<T>)
    requires n > 0 && RoundTrips(fmt) && AllKeysStorable(p.practiceSets)
    ensures var act := Routine.LoadActivities(Some(RoutineExamples.BlankLines(n))).value.activities[0];
            var saved := Save(AddPracticeSet(p, act, score, dateTime), fmt);
            && Load(Some(saved), fmt) == Failure(PracticeSetLoadFailed(NoActivityKey))
            && Load(Some(TextIO.UniversalNewlines(saved)), fmt) == Failure(PracticeSetLoadFailed(NoActivityKey))
  {
    RoutineExamples.BlankLinesBecomeActivities(n);
    var act := Routine.LoadActivities(Some(RoutineExamples.BlankLines(n))).value.activities[0];
    assert act == Routine.Activity("");
    var sets := AddPracticeSet(p, act, score, dateTime).practiceSets;
    var j := |p.practiceSets|;
    assert sets[..j] == p.practiceSets;
    EmptyKeyNotReloadable(sets, j, fmt);
    forall k | 0 <= k < |sets|
      ensures '\r' !in sets[k].activityKey
    {
      if k < j {
        assert sets[k] == p.practiceSets[k];
      }
    }
    SavedFileReadsBack(Practices(sets), fmt);
  }

  /** With blank lines skipped, every activity the routine hands out can be scored, saved
      and loaded back: the results come back as they were saved. `file` is the routine
      file's text; it is read in universal-newlines mode, so no key holds a '\r'. */
  lemma ActivityFromRoutineReloads<T(!new)>(file: string, i: nat, p: Practices<T>, score: int, dateTime: T, fmt: DateTimeFormat<T>)
    requires Routine.LoadActivitiesSkippingBlanks(Some(TextIO.UniversalNewlines(file))).Success?
    requires i < |Routine.LoadActivitiesSkippingBlanks(Some(TextIO.UniversalNewlines(file))).value.activities|
    requires RoundTrips(fmt) && AllKeysStorable(p.practiceSets)
    ensures var act := Routine.LoadActivitiesSkippingBlanks(Some(TextIO.UniversalNewlines(file))).value.activities[i];
            var q := AddPracticeSet(p, act, score, dateTime);
            && Load(Some(Save(q, fmt)), fmt) == Success(q)
            && Load(Some(TextIO.UniversalNewlines(Save(q, fmt))), fmt) == Success(q)
  {
    var text := TextIO.UniversalNewlines(file);
    var acts := Routine.LoadActivitiesSkippingBlanks(Some(text)).value.activities;
    assert acts[i] in acts;
    Routine.KeptActivities(text);
    Routine.LoadedKeysAvoid(text, '\r');
    AddedPracticeSetReloads(p, acts[i], score, dateTime, fmt);
  }
}

=== FILE: textio.dfy ===
/**
 A text file opened for reading, seen through the calls the program makes on it. The read
 position is represented by the content not yet read: `f.readline()` splits one line off the
 front, `f.readlines()` splits all of it, and `f.read(None)` returns all of it.
 Files are opened in universal-newlines mode, so the content seen through these calls is
 the file's text with its line endings translated to '\n' (`UniversalNewlines`).
 */
module TextIO {

  /** `f.readline()` on a stream whose unread content is `s`: the first line, keeping its
      '\n' when it has one, and the content left unread. At the end of the stream it returns
      the empty string. */
  function ReadLine(s: string): (r: (string, string))
    ensures r.0 + r.1 == s
    ensures r.0 == [] <==> s == []
    ensures forall i :: 0 <= i < |r.0| - 1 ==> r.0[i] != '\n'
    ensures r.1 != [] ==> r.0[|r.0| - 1] == '\n'
    decreases |s|
  {
    if s == [] then ("", "")
    else if s[0] == '\n' then ("\n", s[1..])
    else
      var (line, rest) := ReadLine(s[1..]);
      ([s[0]] + line, rest)
  }

  /** A line that ends in its own '\n' is read back whole, whatever follows it. */
  lemma {:induction false} ReadTerminatedLine(line: string, rest: string)
    requires '\n' !in line
    ensures ReadLine(line + "\n" + rest) == (line + "\n", rest)
    decreases |line|
  {
    if line != [] {
      assert (line + "\n" + rest)[1..] == line[1..] + "\n" + rest;
      ReadTerminatedLine(line[1..], rest);
      assert [line[0]] + (line[1..] + "\n") == line + "\n";
    }
  }

  /** The lines joined back together. */
  function Concat(lines: seq<string>): string {
    if lines == [] then "" else lines[0] + Concat(lines[1..])
  }

  /** A single line as `readline()` returns it: non-empty, with a '\n' at most at its end. */
  predicate IsLine(line: string) {
    line != [] && forall i :: 0 <= i < |line| - 1 ==> line[i] != '\n'
  }

  /** Lines as `readlines()` returns them: every line but the last ends in '\n'. */
  predicate AreLines(lines: seq<string>) {
    && (forall k :: 0 <= k < |lines| ==> IsLine(lines[k]))
    && (forall k :: 0 <= k < |lines| - 1 ==> lines[k][|lines[k]| - 1] == '\n')
  }

  /** `f.readlines()`: every line of the unread content, each keeping its '\n'. */
  function ReadLines(s: string): (lines: seq<string>)
    ensures Concat(lines) == s
    ensures AreLines(lines)
    decreases |s|
  {
    if s == [] then []
    else
      var (line, rest) := ReadLine(s);
      var tail := ReadLines(rest);
      assert ([line] + tail)[1..] == tail;
      [line] + tail
  }

  /** `readlines()` on content that starts with a whole line reads that line first. */
  lemma ReadLinesOfTerminated(line: string, rest: string)
    requires '\n' !in line
    ensures ReadLines(line + "\n" + rest) == [line + "\n"] + ReadLines(rest)
  {
    ReadTerminatedLine(line, rest);
  }

  /** `f.readlines()` finds no line exactly when the content is empty. */
  lemma ReadLinesEmpty(s: string)
    ensures ReadLines(s) == [] <==> s == []
  {
  }

  /** A character the content does not hold is in none of its lines. */
  lemma {:induction false} LinesAvoid(s: string, c: char)
    requires c !in s
    ensures forall k :: 0 <= k < |ReadLines(s)| ==> c !in ReadLines(s)[k]
    decreases |s|
  {
    if s != [] {
      var (line, rest) := ReadLine(s);
      assert line + rest == s && line != [];
      assert c !in line && c !in rest;
      LinesAvoid(rest, c);
      assert ReadLines(s) == [line] + ReadLines(rest);
    }
  }

  /** Reading `k` lines one `readline()` call at a time: what is left unread afterwards. */
  function SkipLines(s: string, k: nat): string
    decreases k
  {
    if k == 0 then s else SkipLines(ReadLine(s).1, k - 1)
  }

  /** What a file opened for reading in text mode with `newline=None` yields: each "\r\n" and
      each lone '\r' becomes '\n', and every other character is kept. */
  function UniversalNewlines(raw: string): (r: string)
    ensures '\r' !in r
    ensures |r| <= |raw|
    decreases |raw|
  {
    if raw == [] then []
    else if raw[0] == '\r' then
      "\n" + UniversalNewlines(if |raw| > 1 && raw[1] == '\n' then raw[2..] else raw[1..])
    else [raw[0]] + UniversalNewlines(raw[1..])
  }

  /** The text read is the file's text exactly when the file holds no '\r'. */
  lemma {:induction false} UniversalNewlinesOfPlain(raw: string)
    ensures UniversalNewlines(raw) == raw <==> '\r' !in raw
    decreases |raw|
  {
    if raw != [] && '\r' !in raw {
      assert raw[0] != '\r';
      assert raw == [raw[0]] + raw[1..];
      assert '\r' !in raw[1..];
      UniversalNewlinesOfPlain(raw[1..]);
    }
  }

  /** "\r\n" is read as one '\n'. */
  lemma UniversalNewlinesCrLf(rest: string)
    ensures UniversalNewlines("\r\n" + rest) == "\n" + UniversalNewlines(rest)
  {
    assert ("\r\n" + rest)[2..] == rest;
  }

  /** A '\r' not followed by '\n' is read as '\n'. */
  lemma UniversalNewlinesCr(rest: string)
    requires rest == [] || rest[0] != '\n'
    ensures UniversalNewlines("\r" + rest) == "\n" + UniversalNewlines(rest)
  {
    assert ("\r" + rest)[1..] == rest;
  }

  /** Any other character is read as itself. */
  lemma UniversalNewlinesOther(c: char, rest: string)
    requires c != '\r'
    ensures UniversalNewlines([c] + rest) == [c] + UniversalNewlines(rest)
  {
    assert ([c] + rest)[1..] == rest;
  }

  /** Text that does not end in the middle of a "\r\n" is translated on its own: what
      follows it does not change its translation. */
  lemma {:induction false} UniversalNewlinesAppend(x: string, y: string)
    requires x == [] || x[|x| - 1] != '\r'
    ensures UniversalNewlines(x + y) == UniversalNewlines(x) + UniversalNewlines(y)
    decreases |x|
  {
    if x == [] {
      assert x + y == y;
    } else if x[0] != '\r' {
      var tail := x[1..];
      assert x == [x[0]] + tail && x + y == [x[0]] + (tail + y);
      UniversalNewlinesOther(x[0], tail);
      UniversalNewlinesOther(x[0], tail + y);
      UniversalNewlinesAppend(tail, y);
      AppendAfterHead([x[0]], UniversalNewlines(tail), UniversalNewlines(y));
    } else if x[1] == '\n' {
      var tail := x[2..];
      assert x == "\r\n" + tail && x + y == "\r\n" + (tail + y);
      UniversalNewlinesCrLf(tail);
      UniversalNewlinesCrLf(tail + y);
      UniversalNewlinesAppend(tail, y);
      AppendAfterHead("\n", UniversalNewlines(tail), UniversalNewlines(y));
    } else {
      var tail := x[1..];
      assert x == "\r" + tail && x + y == "\r" + (tail + y);
      UniversalNewlinesCr(tail);
      UniversalNewlinesCr(tail + y);
      UniversalNewlinesAppend(tail, y);
      AppendAfterHead("\n", UniversalNewlines(tail), UniversalNewlines(y));
    }
  }

  /** Joining text behind a head is associative. */
  lemma AppendAfterHead(h: string, a: string, b: string)
    ensures (h + a) + b == h + (a + b)
  {
  }
}

=== FILE: user_input.dfy ===
/**
 Collecting input from the user, with automatic retries on unclear input. `fetch_input` is
 modelled by the sequence of lines it would return, in order; running out of them is the
 `EOFError` that ends the prompt with `NoChoiceMadeError`. What is printed is left out.
 */
module UserInput {
  import opened Wrappers
  import opened PyText

  /** No choice was made by the user: input ran out before a clear answer. */
  datatype NoChoiceMadeError = NoChoiceMadeError

  /** The user's answer and the inputs not yet fetched when it was given. */
  datatype Answer<A> = Answer(value: A, remaining: seq<string>)

  /** `_is_valid_pick(user_choice, max_choice)`: the input reads as an integer from 1 to
      `maxChoice`. */
  function IsValidPick(userChoice: string, maxChoice: int): bool {
    match ParseInt(userChoice)
    case None => false
    case Some(pick) => !(pick < 1 || pick > maxChoice)
  }

  /** The decimal form of a number is a valid pick exactly when the number is in range. */
  lemma ValidPickOfNumber(n: int, maxChoice: int)
    ensures IsValidPick(IntToString(n), maxChoice) <==> 1 <= n <= maxChoice
  {
    ParseIntToString(n);
  }

  /** Input holding a character that is no part of a number is never a valid pick. */
  lemma StrayCharNeverValid(userChoice: string, i: nat, maxChoice: int)
    requires i < |userChoice| && !IsDigit(userChoice[i]) && userChoice[i] != '_'
    requires userChoice[i] != '+' && userChoice[i] != '-' && !IsIntSpace(userChoice[i])
    ensures !IsValidPick(userChoice, maxChoice)
  {
    ParseIntRejectsStrayChar(userChoice, i);
  }

  /** The inputs before position `k` were all rejected by `accept`, and input `k` was taken. */
  predicate FirstAccepted(inputs: seq<string>, k: int, accept: string -> bool) {
    && 0 <= k < |inputs|
    && accept(inputs[k])
    && forall i :: 0 <= i < k ==> !accept(inputs[i])
  }

  /** The retry loop both prompts share: inputs are fetched until `accept` takes one, and
      `answer` turns it into the result. The answer comes from the first accepted input and
      the inputs after it are left unfetched; running out of input first fails. */
  function Ask<A>(inputs: seq<string>, accept: string -> bool, answer: string -> A): (r: Result<Answer<A>, NoChoiceMadeError>)
    ensures r.Failure? <==> forall i :: 0 <= i < |inputs| ==> !accept(inputs[i])
    ensures r.Success? ==>
              var k := |inputs| - |r.value.remaining| - 1;
              && FirstAccepted(inputs, k, accept)
              && r.value.remaining == inputs[k + 1..]
              && r.value.value == answer(inputs[k])
    decreases |inputs|
  {
    if inputs == [] then Failure(NoChoiceMadeError)
    else if accept(inputs[0]) then Success(Answer(answer(inputs[0]), inputs[1..]))
    else
      var r := Ask(inputs[1..], accept, answer);
      assert forall i :: 1 <= i < |inputs| ==> inputs[i] == inputs[1..][i - 1];
      r
  }

  /** `_is_valid_pick` with `max_choice` fixed. */
  function ValidPick(maxChoice: int): string -> bool {
    s => IsValidPick(s, maxChoice)
  }

  /** `int(user_choice) - 1`: the 0-based index of a valid pick. */
  function PickIndex(userChoice: string): int {
    match ParseInt(userChoice)
    case None => -1
    case Some(pick) => pick - 1
  }

  /** The loop of `prompt_for_choice` for a given `max_choice`: the first valid pick decides,
      and the index returned is that pick minus one, from 0 to `maxChoice - 1`. */
  function PromptForPick(inputs: seq<string>, maxChoice: int): (r: Result<Answer<int>, NoChoiceMadeError>)
    ensures r.Success? ==>
              var k := |inputs| - |r.value.remaining| - 1;
              && 0 <= k < |inputs|
              && r.value.remaining == inputs[k + 1..]
              && ParseInt(inputs[k]).Some?
              && r.value.value == ParseInt(inputs[k]).value - 1
              && 0 <= r.value.value < maxChoice
  {
    var r := Ask(inputs, ValidPick(maxChoice), PickIndex);
    if r.Success? then
      var k := |inputs| - |r.value.remaining| - 1;
      assert IsValidPick(inputs[k], maxChoice);
      r
    else r
  }

  /** The pick that decides is the first valid one: every input before it was skipped, and
      the prompt fails exactly when no input is a valid pick. */
  lemma PromptForPickFirstValid(inputs: seq<string>, maxChoice: int)
    ensures var r := PromptForPick(inputs, maxChoice);
            && (r.Failure? <==> forall i :: 0 <= i < |inputs| ==> !IsValidPick(inputs[i], maxChoice))
            && (r.Success? ==>
                  var k := |inputs| - |r.value.remaining| - 1;
                  && 0 <= k < |inputs|
                  && IsValidPick(inputs[k], maxChoice)
                  && forall i :: 0 <= i < k ==> !IsValidPick(inputs[i], maxChoice))
  {
    var r := Ask(inputs, ValidPick(maxChoice), PickIndex);
    assert PromptForPick(inputs, maxChoice) == r;
    assert forall i :: 0 <= i < |inputs| ==> ValidPick(maxChoice)(inputs[i]) == IsValidPick(inputs[i], maxChoice);
  }

  /** `prompt_for_choice(fetch_input, prompt, choices)` as written: `max_choice` is one more
      than the number of choices, so the index returned can be one past the last choice. */
  function PromptForChoice(inputs: seq<string>, choices: seq<string>): (r: Result<Answer<int>, NoChoiceMadeError>)
    ensures r.Success? ==> 0 <= r.value.value <= |choices|
  {
    PromptForPick(inputs, |choices| + 1)
  }

  /** A valid pick fetched first decides the prompt; the inputs after it stay unfetched. */
  lemma ValidPickFirst(userChoice: string, maxChoice: int, rest: seq<string>)
    requires IsValidPick(userChoice, maxChoice)
    ensures PromptForPick([userChoice] + rest, maxChoice) == Success(Answer(ParseInt(userChoice).value - 1, rest))
  {
    var inputs := [userChoice] + rest;
    assert inputs[0] == userChoice && inputs[1..] == rest;
    assert ValidPick(maxChoice)(userChoice);
    assert Ask(inputs, ValidPick(maxChoice), PickIndex) == Success(Answer(PickIndex(userChoice), rest));
  }

  /** The number one past the last choice is accepted, and gives an index no choice has. */
  lemma ChoiceOnePastEndAccepted(choices: seq<string>, rest: seq<string>)
    ensures PromptForChoice([IntToString(|choices| + 1)] + rest, choices) == Success(Answer(|choices|, rest))
  {
    ValidPickOfNumber(|choices| + 1, |choices| + 1);
    ParseIntToString(|choices| + 1);
    ValidPickFirst(IntToString(|choices| + 1), |choices| + 1, rest);
  }

  /** `prompt_for_choice` with `max_choice` equal to the number of choices, as its 1-based
      numbering of the choices intends: the index returned always names a choice. */
  function PromptForChoiceInRange(inputs: seq<string>, choices: seq<string>): (r: Result<Answer<int>, NoChoiceMadeError>)
    ensures r.Success? ==> 0 <= r.value.value < |choices|
  {
    PromptForPick(inputs, |choices|)
  }

  /** With the corrected bound, the number one past the last choice is rejected like any
      other number out of range, and the next valid input decides. */
  lemma ChoiceOnePastEndRejected(choices: seq<string>, rest: seq<string>)
    ensures PromptForChoiceInRange([IntToString(|choices| + 1)] + rest, choices) == PromptForChoiceInRange(rest, choices)
  {
    ValidPickOfNumber(|choices| + 1, |choices|);
    assert ([IntToString(|choices| + 1)] + rest)[1..] == rest;
  }

  /** A number the user picks from 1 to the number of choices selects the choice at one
      less; the inputs after it stay unfetched. Both bounds agree on such a pick. */
  lemma NumberedChoicePicked(n: int, choices: seq<string>, rest: seq<string>)
    requires 1 <= n <= |choices|
    ensures PromptForChoice([IntToString(n)] + rest, choices) == Success(Answer(n - 1, rest))
    ensures PromptForChoiceInRange([IntToString(n)] + rest, choices) == Success(Answer(n - 1, rest))
  {
    NumberPicked(n, |choices|, rest);
    NumberPicked(n, |choices| + 1, rest);
  }

  /** A number from 1 to `maxChoice`, fetched first, gives its index. */
  lemma NumberPicked(n: int, maxChoice: int, rest: seq<string>)
    requires 1 <= n <= maxChoice
    ensures PromptForPick([IntToString(n)] + rest, maxChoice) == Success(Answer(n - 1, rest))
  {
    ValidPickOfNumber(n, maxChoice);
    ParseIntToString(n);
    ValidPickFirst(IntToString(n), maxChoice, rest);
  }

  /** An input that is not a valid pick is skipped: the prompt asks again. */
  lemma UnclearInputSkipped(userChoice: string, choices: seq<string>, rest: seq<string>)
    requires !IsValidPick(userChoice, |choices| + 1)
    ensures PromptForChoice([userChoice] + rest, choices) == PromptForChoice(rest, choices)
  {
    assert ([userChoice] + rest)[1..] == rest;
  }

  /** A number outside 1 to `maxChoice` is not a valid pick. */
  lemma OutOfRangeRejected(n: int, maxChoice: int)
    requires !(1 <= n <= maxChoice)
    ensures !IsValidPick(IntToString(n), maxChoice)
  {
    ValidPickOfNumber(n, maxChoice);
  }

  /** A number from 1 to `maxChoice` is a valid pick, and reads back as itself. */
  lemma InRangeAccepted(n: int, maxChoice: int)
    requires 1 <= n <= maxChoice
    ensures IsValidPick(IntToString(n), maxChoice) && ParseInt(IntToString(n)) == Some(n)
  {
    ValidPickOfNumber(n, maxChoice);
    ParseIntToString(n);
  }

  /** An input that is not a valid pick is skipped, and a valid pick fetched next decides. */
  lemma SkippedThenPicked(skipped: string, picked: string, pick: int, choices: seq<string>)
    requires !IsValidPick(skipped, |choices| + 1) && IsValidPick(picked, |choices| + 1) && ParseInt(picked) == Some(pick)
    ensures PromptForChoice([skipped, picked], choices) == Success(Answer(pick - 1, []))
  {
    assert [skipped] + [picked] == [skipped, picked] by {}
    assert [picked] + [] == [picked] by {}
    UnclearInputSkipped(skipped, choices, [picked]);
    ValidPickFirst(picked, |choices| + 1, []);
  }

  /** A number out of range is skipped, and a number in range fetched next is picked. */
  lemma OutOfRangeThenPicked(n: int, m: int, choices: seq<string>)
    requires !(1 <= n <= |choices| + 1) && 1 <= m <= |choices|
    ensures PromptForChoice([IntToString(n), IntToString(m)], choices) == Success(Answer(m - 1, []))
  {
    OutOfRangeRejected(n, |choices| + 1);
    InRangeAccepted(m, |choices| + 1);
    SkippedThenPicked(IntToString(n), IntToString(m), m, choices);
  }

  /** The answers `prompt_yes_or_no` accepts. */
  predicate IsYesOrNo(s: string) {
    s in ["y", "Y", "n", "N"]
  }

  /** Whether a clear answer was positive. */
  predicate IsYes(s: string) {
    s in ["y", "Y"]
  }

  /** `prompt_yes_or_no(fetch_input, user_prompt)`: inputs are fetched until one is y, Y, n
      or N; the answer is whether it was y or Y. Running out of input first fails. */
  function PromptYesOrNo(inputs: seq<string>): (r: Result<Answer<bool>, NoChoiceMadeError>)
    ensures r.Failure? <==> forall i :: 0 <= i < |inputs| ==> !IsYesOrNo(inputs[i])
    ensures r.Success? ==>
              var k := |inputs| - |r.value.remaining| - 1;
              && 0 <= k < |inputs|
              && IsYesOrNo(inputs[k])
              && (forall i :: 0 <= i < k ==> !IsYesOrNo(inputs[i]))
              && r.value.remaining == inputs[k + 1..]
              && (r.value.value <==> inputs[k] == "y" || inputs[k] == "Y")
  {
    Ask(inputs, IsYesOrNo, IsYes)
  }

  /** Inputs after the first accepted one are never fetched: appending more changes neither
      the answer nor what it leaves unfetched, beyond the appended inputs themselves. */
  lemma {:induction false} AskIgnoresLaterInput<A>(inputs: seq<string>, more: seq<string>, accept: string -> bool, answer: string -> A)
    requires Ask(inputs, accept, answer).Success?
    ensures Ask(inputs + more, accept, answer)
            == Success(Answer(Ask(inputs, accept, answer).value.value, Ask(inputs, accept, answer).value.remaining + more))
    decreases |inputs|
  {
    var both := inputs + more;
    assert both[0] == inputs[0] && both[1..] == inputs[1..] + more;
    if !accept(inputs[0]) {
      AskIgnoresLaterInput(inputs[1..], more, accept, answer);
    }
  }

  /** The answer does not depend on what follows the first clear input. */
  lemma YesOrNoIgnoresLaterInput(inputs: seq<string>, more: seq<string>)
    requires PromptYesOrNo(inputs).Success?
    ensures PromptYesOrNo(inputs + more).Success?
    ensures PromptYesOrNo(inputs + more).value.value == PromptYesOrNo(inputs).value.value
    ensures PromptYesOrNo(inputs + more).value.remaining == PromptYesOrNo(inputs).value.remaining + more
  {
    AskIgnoresLaterInput(inputs, more, IsYesOrNo, IsYes);
  }
}

=== FILE: user_input_examples.dfy ===
/**
 The behaviours the prompt's own tests describe, and the one-past-the-end pick, on the
 tests' three choices.
 */
module UserInputExamples {
  import opened Wrappers
  import opened PyText
  import opened UserInput

  /** Unreadable input is skipped and the next valid pick decides. */
  lemma ValidChoiceAfterInvalidString()
    ensures PromptForChoice(["invalid_choice", "1"], ["a", "b", "c"]) == Success(Answer(0, []))
  {
    StrayCharNeverValid("invalid_choice", 0, 4);
    assert IntToString(1) == "1";
    InRangeAccepted(1, 4);
    SkippedThenPicked("invalid_choice", "1", 1, ["a", "b", "c"]);
  }

  /** A number above the range is skipped. */
  lemma ValidChoiceAfterTooLarge()
    ensures PromptForChoice(["7", "1"], ["a", "b", "c"]) == Success(Answer(0, []))
  {
    assert IntToString(7) == "7" && IntToString(1) == "1";
    OutOfRangeThenPicked(7, 1, ["a", "b", "c"]);
  }

  /** A negative number is skipped. */
  lemma ValidChoiceAfterNegative()
    ensures PromptForChoice(["-7", "2"], ["a", "b", "c"]) == Success(Answer(1, []))
  {
    assert IntToString(-7) == "-7" && IntToString(2) == "2";
    OutOfRangeThenPicked(-7, 2, ["a", "b", "c"]);
  }

  /** Running out of input, at once or after an unclear input, means no choice was made. */
  lemma NoChoiceMade()
    ensures PromptForChoice([], ["a", "b", "c"]) == Failure(NoChoiceMadeError)
    ensures PromptForChoice(["5"], ["a", "b", "c"]) == Failure(NoChoiceMadeError)
  {
    var choices := ["a", "b", "c"];
    assert IntToString(5) == "5";
    ValidPickOfNumber(5, |choices| + 1);
    UnclearInputSkipped("5", choices, []);
    assert ["5"] == ["5"] + [];
  }

  /** "4" with three choices is taken, and selects index 3, which no choice has. */
  lemma FourOfThreeAccepted()
    ensures PromptForChoice(["4"], ["a", "b", "c"]) == Success(Answer(3, []))
    ensures PromptForChoiceInRange(["4"], ["a", "b", "c"]) == Failure(NoChoiceMadeError)
  {
    var choices := ["a", "b", "c"];
    assert IntToString(4) == "4";
    ChoiceOnePastEndAccepted(choices, []);
    ChoiceOnePastEndRejected(choices, []);
    assert ["4"] == [IntToString(|choices| + 1)] + [];
  }
}

=== FILE: wrappers.dfy ===
/** Option and Result: the model's stand-ins for Python's None and for raised exceptions. */
module Wrappers {

  datatype Option<+T> = None | Some(value: T)

  /** Success carries the value an operation returns; Failure carries the exception it raises. */
  datatype Result<+R, +E> = Success(value: R) | Failure(error: E)
}
